=== FILE: README.md ===
# Airline traffic preprocessing and summaries, modelled in Dafny

This project models the data core of the airline traffic analysis package:

- `DataPreProcessor` prepares a table of monthly airport traffic records. Its
  pipeline has four steps, run in this order:
  1. Filter to an allow-list of operating airlines and cap the row count.
  2. Convert the `Activity Period` column from `YYYYMM` to a timestamp and
     add a `Formatted_Activity_Period` column as `YYYY-MM`.
  3. Forward-fill missing cells down every column.
  4. Drop duplicate rows.
- `DataSummary` produces these from a table of records:
  - passenger totals grouped by airline, by month and by year;
  - year-on-year growth in percent;
  - the count, minimum and maximum of the passenger counts.

A table is a value: a list of unique column names and rows of optional cells.
A missing cell is `None`, which stands for pandas' NaN/NaT. Every step is a
pure function returning a new table, so the copy the original takes of its
input needs no modelling.

Each step that can raise returns a `Result`:
- an absent column gives `MissingColumn`, the model of a `KeyError`;
- a period that does not convert gives `InvalidPeriod` with the position of
  the first such row.

Modules:

| module | file | contents |
|---|---|---|
| `Wrappers` | wrappers.dfy | `Option` and `Result` |
| `Seqs` | seqs.dfy | mask selection (`df[mask]`), `head(n)`, subsequences |
| `Period` | period.dfy | `YYYYMM` text to date and back; the pandas timestamp range; `str()` of integers |
| `Tables` | tables.dfy | cells, rows, tables, column lookup, `astype(str)` of a cell |
| `Fill` | fill.dfy | column-wise forward fill against a "last present value above" reference |
| `Dedupe` | dedupe.dfy | `drop_duplicates` as a first-occurrence mask, and a one-pass scan with a seen-set |
| `Preprocess` | preprocess.dfy | the four steps and the pipeline |
| `Keys` | keys.dfy | group keys and the order `groupby` sorts them in (Python string order) |
| `Grouping` | grouping.dfy | `groupby(...).sum()` as a sorted accumulation, against reference sums |
| `Summary` | summary.dfy | the summaries |

## Behaviour to know

- A period that does not convert raises, and the pipeline aborts.
  - `to_datetime` is called with an explicit format and no `errors=` argument.
  - The branch that prints rows with missing dates therefore never finds one.
- The period column keeps the dtype of the table the preprocessor was built
  from.
  - An integer column with a missing value is a float column, and
    `astype(str)` renders its integers as `201501.0`. No such period
    converts.
  - So a missing period makes the pipeline raise whenever at least one row
    survives the filter and the cap, even when the row with the missing
    period was removed. With no surviving row nothing is parsed and the
    pipeline succeeds (`Preprocess.PreprocessZeroCap`).
  - `Preprocess.FloatPeriods` is this dtype and `Preprocess.PeriodText` the
    rendering.
- `Year` and `Month` columns are never produced by the pipeline.
  - The summaries read them from records the caller supplies.
  - `Summary.Record` therefore carries `year` and `month` as given fields.
- Converting a non-empty table a second time raises; an empty one converts
  again without error.
  - After the first conversion, `astype(str)` renders the timestamp column as
    `YYYY-MM-DD`.
  - Appending `01` to that text cannot match `%Y%m%d`.
  - `Period.ConvertedDateRejected` states this for one timestamp,
    `Preprocess.ConvertTwiceRejected` for a table, and
    `Preprocess.ConvertEmptyTwice` the empty case.
- An absent allow-list (`None`) and an empty one (`[]`) behave the same: there
  is no airline filter. The model takes a list and treats empty as "no
  filter".
- `max_records` defaults to 3000 in `filter_airlines` and to 4000 in
  `preprocess`. The model always takes it as an explicit parameter.

## Model

| member | source | states |
|---|---|---|
| Period.ParsePeriod | src/airline_traffic_analysis/data_preprocess.py:19 | appending `01` and parsing with `%Y%m%d` succeeds exactly for six-digit texts with a month 01..12 whose first day lies in the pandas timestamp range [1677-09-22, 2262-04-11]; the result is that first day; a well-shaped text outside the range fails as out of bounds, anything else as unparsable |
| Period.IntPeriod | src/airline_traffic_analysis/data_preprocess.py:19 | an integer period `n` with six digits converts exactly when `n % 100` is a month and day 1 of it is in range, yielding year `n / 100`, month `n % 100`, day 1 |
| Period.FormatRoundTrip | src/airline_traffic_analysis/data_preprocess.py:19-28 | formatting the parsed date as `YYYY-MM` gives the period text with a hyphen after the year, and removing the hyphen gives back the original `YYYYMM` text |
| Period.ConvertedDateRejected | src/airline_traffic_analysis/data_preprocess.py:19 | the `YYYY-MM-DD` text of an already converted timestamp never converts again (unparsable), so conversion is not idempotent |
| Preprocess.AirlineRowsMeaning | src/airline_traffic_analysis/data_preprocess.py:51 | `isin` selection keeps, in order, exactly the rows of the table whose airline cell holds a listed name: the kept rows embed into the table at exactly the positions with a listed airline, so equal rows are kept as often as they occur |
| Preprocess.FilterAirlines | src/airline_traffic_analysis/data_preprocess.py:46-55 | fails (missing column) iff a non-empty list is given and the airline column is absent; otherwise keeps the columns, returns at most `maxRecords` rows in input order, the first `maxRecords` of the table (empty list) or of the listed-airline rows (non-empty list), each with an allowed airline |
| Preprocess.FloatPeriodRejected | src/airline_traffic_analysis/data_preprocess.py:19 | an integer rendered as a float (`n.0`) never converts; it is unparsable |
| Preprocess.ConvertDateColumns | src/airline_traffic_analysis/data_preprocess.py:14-30 | succeeds iff the period column exists and every row's period, rendered according to the column's dtype, converts; a missing column raises for that column; otherwise the first failing row and its reason are reported; on success the row count is kept, the formatted column is added (or overwritten), and each row has its period replaced by the timestamp, the `YYYY-MM` text in the formatted column and every other cell unchanged |
| Fill.ForwardFill | src/airline_traffic_analysis/data_preprocess.py:36 | the shape is kept; every cell becomes the nearest present value at or above it in its column; present cells are unchanged |
| Fill.ForwardFillGaps | src/airline_traffic_analysis/data_preprocess.py:36 | a cell stays missing iff its column has no present value at or above it; a filled value comes from a row at or above it |
| Fill.ForwardFillGapsOnTop | src/airline_traffic_analysis/data_preprocess.py:36 | after the fill, a missing cell has only missing cells above it in its column |
| Fill.SubsequenceGapsOnTop | src/airline_traffic_analysis/data_preprocess.py:36-43 | keeping some rows in order (as deduplication does) keeps missing cells at the top of each column |
| Fill.ForwardFillIdempotent | src/airline_traffic_analysis/data_preprocess.py:36 | forward-filling a filled table changes nothing |
| Preprocess.HandleMissingValues | src/airline_traffic_analysis/data_preprocess.py:32-37 | columns and row count kept; each cell is the last present value at or above it in its column; a present cell, read by column name, is unchanged |
| Dedupe.DropDuplicatesMembers | src/airline_traffic_analysis/data_preprocess.py:43 | the deduplicated rows are exactly the input rows, as a set |
| Dedupe.DropDuplicatesDistinct | src/airline_traffic_analysis/data_preprocess.py:43 | no two deduplicated rows are equal |
| Dedupe.DropDuplicatesSubsequence | src/airline_traffic_analysis/data_preprocess.py:43 | the deduplicated rows keep the input's order |
| Dedupe.DropDuplicatesKeepsFirst | src/airline_traffic_analysis/data_preprocess.py:43 | the kept rows sit in the input at first occurrences, and every first occurrence is kept (`keep='first'`) |
| Dedupe.KeepsFirstExample | src/airline_traffic_analysis/data_preprocess.py:43 | of the rows `[a, b, a]` (with `a != b`), keeping the first occurrences gives exactly `[a, b]`, so the keep-last answer `[b, a]` is excluded |
| Dedupe.DropDuplicatesOfDistinct | src/airline_traffic_analysis/data_preprocess.py:43 | a table without equal rows is left as it is |
| Dedupe.DropDuplicatesIdempotent | src/airline_traffic_analysis/data_preprocess.py:43 | deduplicating twice equals deduplicating once |
| Dedupe.DropDuplicatesScan | src/airline_traffic_analysis/data_preprocess.py:43 | a single pass with a set of seen rows yields the same rows as the first-occurrence definition: distinct, with the input's members |
| Preprocess.RemoveDuplicates | src/airline_traffic_analysis/data_preprocess.py:39-44 | columns kept; rows distinct, in input order, with exactly the input's rows as a set; the kept rows embed into the input at exactly the first occurrences (`keep='first'`) |
| Preprocess.Preprocess | src/airline_traffic_analysis/data_preprocess.py:57-67 | a non-empty list and no airline column raise for that column; otherwise an absent period column raises for that column, and the pipeline fails exactly when the conversion of the filtered rows fails, with the same error (row and reason); a result comes from filtering, then converting with the input's period dtype, then filling, and holds the first occurrence of each filled row, in order, so `keep='first'` is fixed; it has the converted columns, at most `maxRecords` rows, no equal rows and missing cells only at the top of a column; every row comes from an input row, holding that row's converted period as a timestamp with its `YYYY-MM` text and every cell that row had present; only listed airlines remain when a list was given |
| Preprocess.PreprocessOutcome | src/airline_traffic_analysis/data_preprocess.py:57-64 | once the airline check passes, the pipeline succeeds iff the period column exists and every row surviving the filter and the cap has a period that converts when rendered with the input column's dtype |
| Preprocess.PreprocessFloatPeriods | src/airline_traffic_analysis/data_preprocess.py:19 | when the input's period column holds integers and a missing value, the pipeline raises on the first surviving row (unparsable) whenever any row survives, even when the missing value was filtered or capped away |
| Preprocess.PreprocessDroppedMissingPeriod | src/airline_traffic_analysis/data_preprocess.py:19 | periods `201501` and a missing one, capped to one row, raise on row 0 |
| Preprocess.ConvertTwiceRejected | src/airline_traffic_analysis/data_preprocess.py:14-30 | converting a converted table with at least one row raises on row 0 as unparsable |
| Preprocess.ConvertEmptyTwice | src/airline_traffic_analysis/data_preprocess.py:14-30 | a table without rows and with a period column converts, and converts again, to an empty table with the converted columns |
| Preprocess.PreprocessZeroCap | src/airline_traffic_analysis/data_preprocess.py:53 | a cap of zero gives an empty table with the converted columns when the needed columns are present |
| Grouping.GroupSum | src/airline_traffic_analysis/summary.py:20 | one group per distinct key, keys strictly ascending, each total the sum of that key's values, and the totals adding up to the sum of all values |
| Summary.GroupedSums | src/airline_traffic_analysis/summary.py:20 | for a grouping column: ascending keys that are exactly the column's distinct values, each total the sum of the present counts with that value, totals adding up to the table's total |
| Summary.TrafficByAirline | src/airline_traffic_analysis/summary.py:16-20 | one row per airline occurring in the table (and no other), in ascending name order, holding the sum of its present passenger counts; the rows add up to the table total |
| Summary.TrafficByAirlineExample | src/airline_traffic_analysis/summary.py:20 | rows (A, 10), (B, 5), (A, 20) give exactly A: 30 then B: 5 |
| Summary.MonthlyTrafficSummary | src/airline_traffic_analysis/summary.py:22-26 | one row per month value occurring in the table (and no other), ascending, holding the sum of its present passenger counts; the rows add up to the table total |
| Summary.YearOnYearGrowth | src/airline_traffic_analysis/summary.py:28-34 | years strictly ascending and exactly the table's years; each total is that year's sum of present counts; the first growth is NaN; each later growth is (total - prior) / prior * 100 when the prior total is non-zero, and after a zero prior total it is `inf` for a positive total, `-inf` for a negative one and NaN for zero |
| Summary.GrowthFormula | src/airline_traffic_analysis/summary.py:33 | `pct_change() * 100` against a non-zero prior equals the difference over the prior, times 100 |
| Summary.GrowthsExample | src/airline_traffic_analysis/summary.py:33 | totals 100, 150, 120 grow by NaN, 50% and -20% |
| Summary.SummaryStatistics | src/airline_traffic_analysis/summary.py:9-14 | the count is the number of present passenger counts; min and max exist iff the count is positive, are among the present counts, and bound all of them |
| Summary.StatisticsBounds | src/airline_traffic_analysis/summary.py:13 | with a positive count the minimum does not exceed the maximum; with none both are missing |

## Left out

- Printing the invalid-date rows (data_preprocess.py:21-25) is console output, and the branch is unreachable because conversion raises first.
- Summary.SummaryStatistics: models only the count, minimum and maximum of `describe()`; the mean, standard deviation and quartiles are floating-point statistics.
- Summary.YearOnYearGrowth: the growth is an exact real number, not an IEEE double, so rounding is not modelled.
- Preprocess.FilterAirlines: `maxRecords` is a natural number; pandas' `head` with a negative count (all rows but the last ones) is not modelled.
- Preprocess.FloatPeriods: the period column's dtype is inferred by one rule: integers plus at least one missing value make a float column, anything else keeps its cells' own rendering. Columns built by hand with an explicit `object` dtype, or holding actual floats, are not modelled.
- Period.ParsePeriod: accepts only six-digit texts. Python's `strptime` can also match a one-digit month or day, so a five-digit period followed by `01` may convert in pandas; the model rejects it as unparsable.
- Integers are unbounded: int64 overflow of passenger sums is not modelled.
- Group keys are all of one kind per column: `Summary.KeyOf` makes airline keys strings and month and year keys integers, so the model never groups mixed keys. The integer-before-string case of `Keys.KeyLess` only makes the order total. Rows with a missing group key (dropped by `groupby`) are not modelled: `Summary.Record` always has its key fields.
- The commented-out `add_additional_features` step (data_preprocess.py:65) does not run and is not modelled.
- The `isinstance` assertion on construction (data_preprocess.py:11) is a Python type check that Dafny's types make unnecessary.
- Visualisation, data loading and the command-line entry point are outside this model.

=== FILE: dedupe.dfy ===
/** Exact-row deduplication (`drop_duplicates()` with its default
    `keep='first'`): a row is dropped when an equal row occurs earlier. */
module Dedupe {
  import opened Seqs

  /** `~duplicated(keep='first')`: true exactly at the first occurrence of
      each value. */
  function FirstOccurrences<T(==)>(t: seq<T>): (keep: seq<bool>)
    ensures |keep| == |t|
    ensures forall i :: 0 <= i < |t| ==> (keep[i] <==> t[i] !in t[..i])
  {
    seq(|t|, i requires 0 <= i < |t| => t[i] !in t[..i])
  }

  /** `drop_duplicates()`: the rows at first-occurrence positions, in order. */
  function DropDuplicates<T(==)>(t: seq<T>): seq<T> {
    Select(t, FirstOccurrences(t))
  }

  lemma {:induction false} DropDuplicatesSnoc<T>(t: seq<T>, x: T)
    ensures DropDuplicates(t + [x]) == DropDuplicates(t) + (if x in t then [] else [x])
  {
    var t' := t + [x];
    assert t'[..|t|] == t;
    assert forall i :: 0 <= i < |t| ==> t'[i] == t[i] && t'[..i] == t[..i];
    assert FirstOccurrences(t') == FirstOccurrences(t) + [x !in t];
    SelectSnoc(t, FirstOccurrences(t), x, x !in t);
  }

  /** The deduplicated table holds the same rows as the input, as a set:
      nothing new appears and every input row is represented. */
  lemma {:induction false} DropDuplicatesMembers<T>(t: seq<T>)
    ensures forall x :: x in DropDuplicates(t) <==> x in t
    decreases |t|
  {
    if |t| > 0 {
      var n := |t| - 1;
      assert t == t[..n] + [t[n]];
      DropDuplicatesMembers(t[..n]);
      DropDuplicatesSnoc(t[..n], t[n]);
    }
  }

  /** No two kept rows are equal. */
  lemma {:induction false} DropDuplicatesDistinct<T>(t: seq<T>)
    ensures NoDuplicates(DropDuplicates(t))
    decreases |t|
  {
    if |t| > 0 {
      var n := |t| - 1;
      assert t == t[..n] + [t[n]];
      DropDuplicatesDistinct(t[..n]);
      DropDuplicatesMembers(t[..n]);
      DropDuplicatesSnoc(t[..n], t[n]);
    }
  }

  /** The kept rows are a subsequence of the input: order is preserved. */
  lemma DropDuplicatesSubsequence<T>(t: seq<T>)
    ensures IsSubsequence(DropDuplicates(t), t)
  {
    SelectIsSubsequence(t, FirstOccurrences(t));
  }

  /** `a` is `b` with every repeat dropped and the first occurrences kept:
      `a` embeds into `b` at exactly the positions of first occurrences. */
  ghost predicate KeepsFirstOccurrences<T>(a: seq<T>, b: seq<T>) {
    exists idx :: Embedding(idx, a, b)
                  && (forall k :: 0 <= k < |idx| ==> b[idx[k]] !in b[..idx[k]])
                  && (forall i :: 0 <= i < |b| && b[i] !in b[..i] ==> i in idx)
  }

  /** Each kept row sits in the input at a first occurrence, and the kept
      rows follow the order of their first occurrences. */
  lemma DropDuplicatesKeepsFirst<T>(t: seq<T>)
    ensures KeepsFirstOccurrences(DropDuplicates(t), t)
  {
    var keep := FirstOccurrences(t);
    SelectAt(t, keep);
    var idx := SelectedIndices(keep);
    assert Embedding(idx, DropDuplicates(t), t);
  }

  /** From `[a, b, a]` only `[a, b]` keeps the first occurrences; keeping
      the last ones (`[b, a]`) does not. */
  lemma KeepsFirstExample<T>(a: T, b: T, r: seq<T>)
    requires a != b
    ensures KeepsFirstOccurrences(r, [a, b, a]) <==> r == [a, b]
  {
    if KeepsFirstOccurrences(r, [a, b, a]) {
      KeptRowsOfExample(a, b, r);
    }
    if r == [a, b] {
      KeptPositionsOfExample(a, b);
    }
  }

  lemma KeptRowsOfExample<T>(a: T, b: T, r: seq<T>)
    requires a != b && KeepsFirstOccurrences(r, [a, b, a])
    ensures r == [a, b]
  {
    var t := [a, b, a];
    var idx :| Embedding(idx, r, t)
               && (forall k :: 0 <= k < |idx| ==> t[idx[k]] !in t[..idx[k]])
               && (forall i :: 0 <= i < |t| && t[i] !in t[..i] ==> i in idx);
    KeptPositions(a, b, idx);
    assert |r| == 2 && r[0] == t[0] && r[1] == t[1];
  }

  lemma KeptPositionsOfExample<T>(a: T, b: T)
    requires a != b
    ensures KeepsFirstOccurrences([a, b], [a, b, a])
  {
    var t := [a, b, a];
    assert t[..0] == [] && t[..1] == [a] && t[..2] == [a, b];
    assert Embedding([0, 1], [a, b], t);
  }

  /** The first-occurrence positions of `[a, b, a]` are 0 and 1. */
  lemma KeptPositions<T>(a: T, b: T, idx: seq<nat>)
    requires a != b
    requires forall k :: 0 <= k < |idx| ==> idx[k] < 3
    requires forall k, l :: 0 <= k < l < |idx| ==> idx[k] < idx[l]
    requires forall k :: 0 <= k < |idx| ==> [a, b, a][idx[k]] !in [a, b, a][..idx[k]]
    requires forall i :: 0 <= i < 3 && [a, b, a][i] !in [a, b, a][..i] ==> i in idx
    ensures idx == [0, 1]
  {
    var t := [a, b, a];
    assert t[..0] == [] && t[..1] == [a] && t[..2] == [a, b];
    assert t[2] in t[..2];
    assert 0 in idx && 1 in idx;
    FirstTwoPositions(idx);
  }

  /** Strictly increasing positions below 2 that include 0 and 1 are
      exactly `[0, 1]`. */
  lemma FirstTwoPositions(idx: seq<nat>)
    requires forall k, l :: 0 <= k < l < |idx| ==> idx[k] < idx[l]
    requires forall k :: 0 <= k < |idx| ==> idx[k] < 2
    requires 0 in idx && 1 in idx
    ensures idx == [0, 1]
  {
    var k1 :| 0 <= k1 < |idx| && idx[k1] == 1;
    assert idx[0] == 0;
    assert idx[|idx| - 1] == 1;
    assert idx[1] == 1;
  }

  /** A table without duplicate rows is left as it is. */
  lemma {:induction false} DropDuplicatesOfDistinct<T>(t: seq<T>)
    requires NoDuplicates(t)
    ensures DropDuplicates(t) == t
    decreases |t|
  {
    if |t| > 0 {
      var n := |t| - 1;
      assert t == t[..n] + [t[n]];
      assert t[n] !in t[..n];
      DropDuplicatesOfDistinct(t[..n]);
      DropDuplicatesSnoc(t[..n], t[n]);
    }
  }

  /** Deduplicating twice is deduplicating once. */
  lemma DropDuplicatesIdempotent<T>(t: seq<T>)
    ensures DropDuplicates(DropDuplicates(t)) == DropDuplicates(t)
  {
    DropDuplicatesDistinct(t);
    DropDuplicatesOfDistinct(DropDuplicates(t));
  }

  /** The hash-table form of the operation: one pass, remembering the rows
      seen so far, keeping a row the first time it is seen. */
  method DropDuplicatesScan<T(==)>(t: seq<T>) returns (kept: seq<T>)
    ensures kept == DropDuplicates(t)
    ensures NoDuplicates(kept)
    ensures forall x :: x in kept <==> x in t
  {
    kept := [];
    var seen: set<T> := {};
    var i := 0;
    while i < |t|
      invariant 0 <= i <= |t|
      invariant kept == DropDuplicates(t[..i])
      invariant forall x :: x in seen <==> x in t[..i]
    {
      assert t[..i + 1] == t[..i] + [t[i]];
      DropDuplicatesSnoc(t[..i], t[i]);
      if t[i] !in seen {
        kept := kept + [t[i]];
        seen := seen + {t[i]};
      }
      i := i + 1;
    }
    assert t[..i] == t;
    DropDuplicatesDistinct(t);
    DropDuplicatesMembers(t);
  }
}

=== FILE: fill.dfy ===
/** Column-wise forward fill (`fillna(method='ffill')`) over a table of
    possibly missing cells: every missing cell takes the nearest present
    value above it in the same column; a cell with none above stays missing. */
module Fill {
  import opened Wrappers
  import opened Seqs

  /** A row of `width` missing cells: what is carried before the first row. */
  function MissingRow<V>(width: nat): (r: seq<Option<V>>)
    ensures |r| == width
    ensures forall j :: 0 <= j < width ==> r[j].None?
  {
    seq(width, j => None)
  }

  /** One row with its gaps filled from the values carried down so far. */
  function FillRow<V>(carry: seq<Option<V>>, row: seq<Option<V>>): (r: seq<Option<V>>)
    requires |carry| == |row|
    ensures |r| == |row|
  {
    seq(|row|, j requires 0 <= j < |row| => if row[j].Some? then row[j] else carry[j])
  }

  /** Forward fill continuing from the carried values `carry`. */
  function FillFrom<V>(carry: seq<Option<V>>, rows: seq<seq<Option<V>>>): (r: seq<seq<Option<V>>>)
    requires Rectangular(rows, |carry|)
    ensures |r| == |rows| && Rectangular(r, |carry|)
    decreases |rows|
  {
    if |rows| == 0 then []
    else
      var first := FillRow(carry, rows[0]);
      [first] + FillFrom(first, rows[1..])
  }

  /** The nearest present value in column `j` at or above row `i`, if any:
      the reference meaning of a forward-filled cell. */
  function LastPresent<V>(rows: seq<seq<Option<V>>>, width: nat, i: nat, j: nat): Option<V>
    requires Rectangular(rows, width) && i < |rows| && j < width
  {
    if rows[i][j].Some? then rows[i][j]
    else if i == 0 then None
    else LastPresent(rows, width, i - 1, j)
  }

  /** `fillna(method='ffill')` on rows of `width` cells. The shape is kept,
      present cells are untouched, and every cell holds the nearest present
      value at or above it in its column. */
  function ForwardFill<V>(rows: seq<seq<Option<V>>>, width: nat): (r: seq<seq<Option<V>>>)
    requires Rectangular(rows, width)
    ensures |r| == |rows| && Rectangular(r, width)
    ensures forall i, j :: 0 <= i < |rows| && 0 <= j < width ==> r[i][j] == LastPresent(rows, width, i, j)
    ensures forall i, j :: 0 <= i < |rows| && 0 <= j < width && rows[i][j].Some? ==> r[i][j] == rows[i][j]
  {
    FillFromMeaning(MissingRow(width), rows);
    FillFrom(MissingRow(width), rows)
  }

  /** Looking up from row `i + 1` is looking up in the rows below the first,
      falling back on the first row. */
  lemma {:induction false} LastPresentShift<V>(rows: seq<seq<Option<V>>>, width: nat, i: nat, j: nat)
    requires Rectangular(rows, width) && i + 1 < |rows| && j < width
    ensures LastPresent(rows, width, i + 1, j)
            == (if LastPresent(rows[1..], width, i, j).Some? then LastPresent(rows[1..], width, i, j) else rows[0][j])
  {
    if rows[i + 1][j].None? && i > 0 {
      LastPresentShift(rows, width, i - 1, j);
    }
  }

  lemma {:induction false} FillFromMeaning<V>(carry: seq<Option<V>>, rows: seq<seq<Option<V>>>)
    requires Rectangular(rows, |carry|)
    ensures forall i, j :: 0 <= i < |rows| && 0 <= j < |carry| ==>
              FillFrom(carry, rows)[i][j]
              == (if LastPresent(rows, |carry|, i, j).Some? then LastPresent(rows, |carry|, i, j) else carry[j])
    decreases |rows|
  {
    if |rows| > 0 {
      var w := |carry|;
      var first := FillRow(carry, rows[0]);
      FillFromMeaning(first, rows[1..]);
      forall i, j | 0 <= i < |rows| && 0 <= j < w
        ensures FillFrom(carry, rows)[i][j]
                == (if LastPresent(rows, w, i, j).Some? then LastPresent(rows, w, i, j) else carry[j])
      {
        if i > 0 {
          LastPresentShift(rows, w, i - 1, j);
        }
      }
    }
  }

  /** A cell is still missing after the fill exactly when its column has no
      present value at or above it. */
  lemma {:induction false} LastPresentNone<V>(rows: seq<seq<Option<V>>>, width: nat, i: nat, j: nat)
    requires Rectangular(rows, width) && i < |rows| && j < width
    ensures LastPresent(rows, width, i, j).None? <==> forall k :: 0 <= k <= i ==> rows[k][j].None?
  {
    if rows[i][j].None? && i > 0 {
      LastPresentNone(rows, width, i - 1, j);
    }
  }

  /** A present filled value comes from the nearest row at or above with a
      present value in that column: every row in between is missing there. */
  lemma {:induction false} LastPresentNearest<V>(rows: seq<seq<Option<V>>>, width: nat, i: nat, j: nat)
    requires Rectangular(rows, width) && i < |rows| && j < width
    requires LastPresent(rows, width, i, j).Some?
    ensures exists k :: 0 <= k <= i && rows[k][j] == LastPresent(rows, width, i, j)
                        && forall l :: k < l <= i ==> rows[l][j].None?
  {
    if rows[i][j].None? {
      LastPresentNearest(rows, width, i - 1, j);
      var k :| 0 <= k <= i - 1 && rows[k][j] == LastPresent(rows, width, i - 1, j)
               && forall l :: k < l <= i - 1 ==> rows[l][j].None?;
      assert forall l :: k < l <= i ==> rows[l][j].None?;
    }
  }

  /** After the fill, a cell is missing only if nothing at or above it in
      its column was present; otherwise it holds the nearest such value. */
  lemma ForwardFillGaps<V>(rows: seq<seq<Option<V>>>, width: nat, i: nat, j: nat)
    requires Rectangular(rows, width) && i < |rows| && j < width
    ensures ForwardFill(rows, width)[i][j].None? <==> forall k :: 0 <= k <= i ==> rows[k][j].None?
    ensures ForwardFill(rows, width)[i][j].Some? ==>
              exists k :: 0 <= k <= i && rows[k][j] == ForwardFill(rows, width)[i][j]
                          && forall l :: k < l <= i ==> rows[l][j].None?
  {
    LastPresentNone(rows, width, i, j);
    if LastPresent(rows, width, i, j).Some? {
      LastPresentNearest(rows, width, i, j);
    }
  }

  lemma {:induction false} FillFromIdempotent<V>(carry: seq<Option<V>>, rows: seq<seq<Option<V>>>)
    requires Rectangular(rows, |carry|)
    ensures FillFrom(carry, FillFrom(carry, rows)) == FillFrom(carry, rows)
    decreases |rows|
  {
    if |rows| > 0 {
      var first := FillRow(carry, rows[0]);
      var once := FillFrom(carry, rows);
      assert FillRow(carry, first) == first;
      assert once[1..] == FillFrom(first, rows[1..]);
      FillFromIdempotent(first, rows[1..]);
    }
  }

  /** Filling an already filled table changes nothing. */
  lemma ForwardFillIdempotent<V>(rows: seq<seq<Option<V>>>, width: nat)
    requires Rectangular(rows, width)
    ensures ForwardFill(ForwardFill(rows, width), width) == ForwardFill(rows, width)
  {
    FillFromIdempotent(MissingRow(width), rows);
  }

  /** The shape a forward-filled table has: in every column, a missing cell
      has only missing cells above it. */
  predicate GapsOnTop<V>(rows: seq<seq<Option<V>>>, width: nat) {
    && Rectangular(rows, width)
    && forall i, k, j :: 0 <= k < i < |rows| && 0 <= j < width && rows[i][j].None? ==> rows[k][j].None?
  }

  /** Forward fill leaves missing cells only at the top of each column. */
  lemma ForwardFillGapsOnTop<V>(rows: seq<seq<Option<V>>>, width: nat)
    requires Rectangular(rows, width)
    ensures GapsOnTop(ForwardFill(rows, width), width)
  {
    var r: seq<seq<Option<V>>> := ForwardFill(rows, width);
    forall i, k, j | 0 <= k < i < |r| && 0 <= j < width && r[i][j].None?
      ensures r[k][j].None?
    {
      ForwardFillGaps(rows, width, i, j);
      ForwardFillGaps(rows, width, k, j);
    }
  }

  /** Keeping some rows, in order, keeps missing cells at the top. */
  lemma SubsequenceGapsOnTop<V>(a: seq<seq<Option<V>>>, b: seq<seq<Option<V>>>, width: nat)
    requires IsSubsequence(a, b) && GapsOnTop(b, width)
    ensures GapsOnTop(a, width)
  {
    var idx :| Embedding(idx, a, b);
    forall i, k, j | 0 <= k < i < |a| && 0 <= j < width && a[i][j].None?
      ensures a[k][j].None?
    {
      assert b[idx[i]][j].None? && idx[k] < idx[i];
    }
  }
}

=== FILE: grouping.dfy ===
/** `groupby(key)[value].sum().reset_index()` over (key, value) pairs: one
    group per distinct key, sorted by key, holding the sum of that key's
    values. The groups are built in one pass, adding each pair into a
    key-sorted list of running totals. */
module Grouping {
  import opened Keys

  datatype Group = Group(key: Key, total: int)

  /** Keys strictly increase along the list, so no key occurs twice. */
  predicate Ascending(gs: seq<Group>) {
    forall i, j :: 0 <= i < j < |gs| ==> KeyLess(gs[i].key, gs[j].key)
  }

  function KeysOf(gs: seq<Group>): set<Key> {
    set i | 0 <= i < |gs| :: gs[i].key
  }

  /** The keys occurring in a list of pairs. */
  function PairKeys(pairs: seq<(Key, int)>): set<Key> {
    set i | 0 <= i < |pairs| :: pairs[i].0
  }

  /** The total recorded for key `k` (summed over every group with that key). */
  function TotalOf(gs: seq<Group>, k: Key): int {
    if |gs| == 0 then 0
    else (if gs[0].key == k then gs[0].total else 0) + TotalOf(gs[1..], k)
  }

  function SumTotals(gs: seq<Group>): int {
    if |gs| == 0 then 0 else gs[0].total + SumTotals(gs[1..])
  }

  /** Reference meaning of a group total: the sum of the values paired
      with `k`. */
  function SumFor(pairs: seq<(Key, int)>, k: Key): int {
    if |pairs| == 0 then 0
    else (if pairs[0].0 == k then pairs[0].1 else 0) + SumFor(pairs[1..], k)
  }

  function SumAll(pairs: seq<(Key, int)>): int {
    if |pairs| == 0 then 0 else pairs[0].1 + SumAll(pairs[1..])
  }

  /** Add value `v` under key `k` to key-sorted running totals. */
  function Add(gs: seq<Group>, k: Key, v: int): seq<Group> {
    if |gs| == 0 then [Group(k, v)]
    else if gs[0].key == k then [Group(k, gs[0].total + v)] + gs[1..]
    else if KeyLess(k, gs[0].key) then [Group(k, v)] + gs
    else [gs[0]] + Add(gs[1..], k, v)
  }

  /** Add every pair, in order, to the running totals. */
  function Accumulate(gs: seq<Group>, pairs: seq<(Key, int)>): seq<Group>
    decreases |pairs|
  {
    if |pairs| == 0 then gs else Accumulate(Add(gs, pairs[0].0, pairs[0].1), pairs[1..])
  }

  /** The grouped sums: one group per distinct key, in ascending key order,
      each holding the sum of its key's values, all together summing to
      the sum of all values. */
  function GroupSum(pairs: seq<(Key, int)>): (r: seq<Group>)
    ensures Ascending(r)
    ensures KeysOf(r) == PairKeys(pairs)
    ensures forall i :: 0 <= i < |r| ==> r[i].total == SumFor(pairs, r[i].key)
    ensures SumTotals(r) == SumAll(pairs)
  {
    AccumulateMeaning([], pairs);
    var r := Accumulate([], pairs);
    forall i | 0 <= i < |r|
      ensures r[i].total == SumFor(pairs, r[i].key)
    {
      TotalOfAscending(r, i);
    }
    r
  }

  lemma AscendingCons(g: Group, gs: seq<Group>)
    requires Ascending(gs)
    requires forall k :: k in KeysOf(gs) ==> KeyLess(g.key, k)
    ensures Ascending([g] + gs)
  {
    var r := [g] + gs;
    forall i, j | 0 <= i < j < |r|
      ensures KeyLess(r[i].key, r[j].key)
    {
      if i == 0 {
        assert r[j].key == gs[j - 1].key;
      }
    }
  }

  lemma KeysOfCons(g: Group, gs: seq<Group>)
    ensures KeysOf([g] + gs) == {g.key} + KeysOf(gs)
  {
    var r := [g] + gs;
    forall key | key in KeysOf(gs)
      ensures key in KeysOf(r)
    {
      var i :| 0 <= i < |gs| && gs[i].key == key;
      assert r[i + 1].key == key;
    }
    assert r[0].key == g.key;
    forall key | key in KeysOf(r)
      ensures key in {g.key} + KeysOf(gs)
    {
      var i :| 0 <= i < |r| && r[i].key == key;
      if i > 0 {
        assert gs[i - 1].key == key;
      }
    }
  }

  lemma {:induction false} AddKeys(gs: seq<Group>, k: Key, v: int)
    ensures KeysOf(Add(gs, k, v)) == KeysOf(gs) + {k}
    decreases |gs|
  {
    if |gs| == 0 {
      assert KeysOf([Group(k, v)]) == {k} by {
        assert [Group(k, v)][0].key == k;
      }
    } else {
      KeysOfCons(gs[0], gs[1..]);
      assert gs == [gs[0]] + gs[1..];
      if gs[0].key == k {
        KeysOfCons(Group(k, gs[0].total + v), gs[1..]);
      } else if KeyLess(k, gs[0].key) {
        KeysOfCons(Group(k, v), gs);
      } else {
        AddKeys(gs[1..], k, v);
        KeysOfCons(gs[0], Add(gs[1..], k, v));
      }
    }
  }

  lemma {:induction false} AddAscending(gs: seq<Group>, k: Key, v: int)
    requires Ascending(gs)
    ensures Ascending(Add(gs, k, v))
    decreases |gs|
  {
    if |gs| > 0 {
      if gs[0].key == k {
        var r := Add(gs, k, v);
        assert forall i :: 0 <= i < |r| ==> r[i].key == gs[i].key;
      } else if KeyLess(k, gs[0].key) {
        forall key | key in KeysOf(gs)
          ensures KeyLess(k, key)
        {
          var i :| 0 <= i < |gs| && gs[i].key == key;
          if i > 0 {
            KeyLessTransitive(k, gs[0].key, key);
          }
        }
        AscendingCons(Group(k, v), gs);
      } else {
        KeyLessTotal(k, gs[0].key);
        AddAscending(gs[1..], k, v);
        AddKeys(gs[1..], k, v);
        forall key | key in KeysOf(Add(gs[1..], k, v))
          ensures KeyLess(gs[0].key, key)
        {
          if key != k {
            var i :| 0 <= i < |gs[1..]| && gs[1..][i].key == key;
            assert gs[i + 1].key == key;
          }
        }
        AscendingCons(gs[0], Add(gs[1..], k, v));
      }
    }
  }

  lemma {:induction false} AddTotal(gs: seq<Group>, k: Key, v: int, k': Key)
    ensures TotalOf(Add(gs, k, v), k') == TotalOf(gs, k') + (if k' == k then v else 0)
    decreases |gs|
  {
    if |gs| > 0 {
      if gs[0].key == k {
        assert Add(gs, k, v)[1..] == gs[1..];
      } else if KeyLess(k, gs[0].key) {
        assert Add(gs, k, v)[1..] == gs;
      } else {
        assert Add(gs, k, v)[1..] == Add(gs[1..], k, v);
        AddTotal(gs[1..], k, v, k');
      }
    }
  }

  lemma {:induction false} AddSum(gs: seq<Group>, k: Key, v: int)
    ensures SumTotals(Add(gs, k, v)) == SumTotals(gs) + v
    decreases |gs|
  {
    if |gs| > 0 {
      if gs[0].key == k {
        assert Add(gs, k, v)[1..] == gs[1..];
      } else if KeyLess(k, gs[0].key) {
        assert Add(gs, k, v)[1..] == gs;
      } else {
        assert Add(gs, k, v)[1..] == Add(gs[1..], k, v);
        AddSum(gs[1..], k, v);
      }
    }
  }

  lemma {:induction false} AccumulateMeaning(gs: seq<Group>, pairs: seq<(Key, int)>)
    requires Ascending(gs)
    ensures Ascending(Accumulate(gs, pairs))
    ensures KeysOf(Accumulate(gs, pairs)) == KeysOf(gs) + PairKeys(pairs)
    ensures forall k :: TotalOf(Accumulate(gs, pairs), k) == TotalOf(gs, k) + SumFor(pairs, k)
    ensures SumTotals(Accumulate(gs, pairs)) == SumTotals(gs) + SumAll(pairs)
    decreases |pairs|
  {
    if |pairs| > 0 {
      var (k, v) := pairs[0];
      var next := Add(gs, k, v);
      AddAscending(gs, k, v);
      AddKeys(gs, k, v);
      AddSum(gs, k, v);
      forall k' ensures TotalOf(next, k') == TotalOf(gs, k') + (if k' == k then v else 0) {
        AddTotal(gs, k, v, k');
      }
      AccumulateMeaning(next, pairs[1..]);
      assert PairKeys(pairs) == {k} + PairKeys(pairs[1..]) by {
        assert forall i :: 1 <= i < |pairs| ==> pairs[i] == pairs[1..][i - 1];
      }
    }
  }

  /** A key absent from the groups has total zero. */
  lemma {:induction false} TotalOfAbsent(gs: seq<Group>, k: Key)
    requires forall i :: 0 <= i < |gs| ==> gs[i].key != k
    ensures TotalOf(gs, k) == 0
    decreases |gs|
  {
    if |gs| > 0 {
      TotalOfAbsent(gs[1..], k);
    }
  }

  /** In ascending groups, the total recorded for a group's key is that
      group's total. */
  lemma {:induction false} TotalOfAscending(gs: seq<Group>, i: nat)
    requires Ascending(gs) && i < |gs|
    ensures TotalOf(gs, gs[i].key) == gs[i].total
    decreases |gs|
  {
    if i == 0 {
      forall l | 0 <= l < |gs[1..]|
        ensures gs[1..][l].key != gs[0].key
      {
        assert KeyLess(gs[0].key, gs[l + 1].key);
        KeyLessIrreflexive(gs[0].key);
      }
      TotalOfAbsent(gs[1..], gs[0].key);
    } else {
      assert KeyLess(gs[0].key, gs[i].key);
      KeyLessIrreflexive(gs[0].key);
      TotalOfAscending(gs[1..], i - 1);
    }
  }
}

=== FILE: keys.dfy ===
/** Group keys and the order `groupby` sorts them in: integers numerically,
    strings as Python compares them (code point by code point, a proper
    prefix first). */
module Keys {

  datatype Key = IntKey(i: int) | StrKey(s: string)

  /** Python's `<` on `str`. */
  predicate StrLess(a: string, b: string)
    decreases |a|
  {
    if |a| == 0 then |b| > 0
    else if |b| == 0 then false
    else if a[0] != b[0] then a[0] < b[0]
    else StrLess(a[1..], b[1..])
  }

  /** The sort order of group keys. A grouping column holds one kind of key;
      integers are put before strings only to make the order total. */
  predicate KeyLess(a: Key, b: Key) {
    match (a, b)
    case (IntKey(x), IntKey(y)) => x < y
    case (StrKey(x), StrKey(y)) => StrLess(x, y)
    case (IntKey(_), StrKey(_)) => true
    case (StrKey(_), IntKey(_)) => false
  }

  lemma {:induction false} StrLessIrreflexive(a: string)
    ensures !StrLess(a, a)
    decreases |a|
  {
    if |a| > 0 {
      StrLessIrreflexive(a[1..]);
    }
  }

  lemma {:induction false} StrLessTransitive(a: string, b: string, c: string)
    requires StrLess(a, b) && StrLess(b, c)
    ensures StrLess(a, c)
    decreases |a|
  {
    if |a| > 0 && a[0] == b[0] && b[0] == c[0] {
      StrLessTransitive(a[1..], b[1..], c[1..]);
    }
  }

  lemma {:induction false} StrLessTotal(a: string, b: string)
    requires a != b
    ensures StrLess(a, b) || StrLess(b, a)
    decreases |a|
  {
    if |a| > 0 && |b| > 0 && a[0] == b[0] {
      assert a == [a[0]] + a[1..] && b == [b[0]] + b[1..];
      StrLessTotal(a[1..], b[1..]);
    }
  }

  /** `KeyLess` is a strict total order. */
  lemma KeyLessIrreflexive(a: Key)
    ensures !KeyLess(a, a)
  {
    if a.StrKey? {
      StrLessIrreflexive(a.s);
    }
  }

  lemma KeyLessTransitive(a: Key, b: Key, c: Key)
    requires KeyLess(a, b) && KeyLess(b, c)
    ensures KeyLess(a, c)
  {
    if a.StrKey? && b.StrKey? && c.StrKey? {
      StrLessTransitive(a.s, b.s, c.s);
    }
  }

  lemma KeyLessTotal(a: Key, b: Key)
    requires a != b
    ensures KeyLess(a, b) || KeyLess(b, a)
  {
    if a.StrKey? && b.StrKey? {
      StrLessTotal(a.s, b.s);
    }
  }
}

=== FILE: period.dfy ===
/** The `Activity Period` value conversion of `DataPreProcessor.convert_date_columns`:
    a period is rendered as text (`astype(str)`), the day `01` is appended, and
    the result is parsed strictly with the format `%Y%m%d` into a nanosecond
    timestamp; the timestamp is then rendered as `YYYY-MM` (`strftime('%Y-%m')`). */
module Period {
  import opened Wrappers

  /** A calendar day, as the parse yields it (the time of day is midnight). */
  datatype Date = Date(year: nat, month: nat, day: nat)

  /** Why one value could not be converted: it does not match `%Y%m%d`
      as a calendar date, or the date lies outside the timestamp range. */
  datatype PeriodError = Unparsable | OutOfBounds

  predicate IsDigit(c: char) {
    '0' <= c <= '9'
  }

  predicate AllDigits(s: string) {
    forall i :: 0 <= i < |s| ==> IsDigit(s[i])
  }

  function DigitValue(c: char): nat
    requires IsDigit(c)
  {
    c as int - '0' as int
  }

  function DigitChar(d: nat): char
    requires d < 10
  {
    (d + '0' as int) as char
  }

  function Pow10(w: nat): nat {
    if w == 0 then 1 else 10 * Pow10(w - 1)
  }

  /** The number a string of decimal digits denotes. */
  function NumberValue(s: string): nat
    requires AllDigits(s)
  {
    if |s| == 0 then 0 else NumberValue(s[..|s| - 1]) * 10 + DigitValue(s[|s| - 1])
  }

  /** The lowest `width` decimal digits of `n`, zero-padded (`%0<width>d`). */
  function Padded(n: nat, width: nat): (s: string)
    ensures |s| == width && AllDigits(s)
  {
    if width == 0 then [] else Padded(n / 10, width - 1) + [DigitChar(n % 10)]
  }

  /** Python's `str(n)` for an integer: a minus sign for negatives, then the
      decimal digits without leading zeros. */
  function IntText(n: int): string {
    if n < 0 then "-" + NatText(-n) else NatText(n)
  }

  function NatText(n: nat): (s: string)
    ensures |s| > 0 && AllDigits(s)
  {
    if n < 10 then [DigitChar(n)] else NatText(n / 10) + [DigitChar(n % 10)]
  }

  predicate IsLeapYear(y: nat) {
    y % 4 == 0 && (y % 100 != 0 || y % 400 == 0)
  }

  function DaysInMonth(y: nat, m: nat): nat
    requires 1 <= m <= 12
  {
    if m == 2 then (if IsLeapYear(y) then 29 else 28)
    else if m == 4 || m == 6 || m == 9 || m == 11 then 30
    else 31
  }

  predicate IsCalendarDate(y: nat, m: nat, d: nat) {
    1 <= m <= 12 && 1 <= d <= DaysInMonth(y, m)
  }

  /** Calendar order on days. */
  predicate DateLe(a: Date, b: Date) {
    a.year < b.year
    || (a.year == b.year && a.month < b.month)
    || (a.year == b.year && a.month == b.month && a.day <= b.day)
  }

  /** A nanosecond timestamp spans 1677-09-21 00:12:43.145224193 to
      2262-04-11 23:47:16.854775807, so these are the first and last
      midnights it can hold. */
  const FirstStampDay := Date(1677, 9, 22)
  const LastStampDay := Date(2262, 4, 11)

  predicate InStampRange(d: Date) {
    DateLe(FirstStampDay, d) && DateLe(d, LastStampDay)
  }

  /** Strict `%Y%m%d` parse: exactly four year digits, two month digits and
      two day digits forming a calendar date within the timestamp range. */
  function ParseDate(s: string): (r: Result<Date, PeriodError>)
    ensures r.Success? ==> IsCalendarDate(r.value.year, r.value.month, r.value.day)
    ensures r.Success? ==> InStampRange(r.value)
    ensures |s| != 8 ==> r == Failure(Unparsable)
  {
    if |s| != 8 || !AllDigits(s) then Failure(Unparsable)
    else
      var y, m, d := NumberValue(s[..4]), NumberValue(s[4..6]), NumberValue(s[6..]);
      if !IsCalendarDate(y, m, d) then Failure(Unparsable)
      else if !InStampRange(Date(y, m, d)) then Failure(OutOfBounds)
      else Success(Date(y, m, d))
  }

  /** Whether `text` has the `YYYYMM` shape the conversion can accept. */
  predicate IsYearMonthText(text: string) {
    |text| == 6 && AllDigits(text) && 1 <= NumberValue(text[4..]) <= 12
  }

  /** The first day of the month a `YYYYMM` text names. */
  function FirstOfMonth(text: string): Date
    requires IsYearMonthText(text)
  {
    Date(NumberValue(text[..4]), NumberValue(text[4..]), 1)
  }

  /** The conversion of one rendered period: append `01`, parse strictly.
      Because the appended day is `01`, which every month has, the parse
      succeeds exactly for six-digit texts with month 01..12 whose first
      day lies in the timestamp range. */
  function ParsePeriod(text: string): (r: Result<Date, PeriodError>)
    ensures r.Success? <==> IsYearMonthText(text) && InStampRange(FirstOfMonth(text))
    ensures r.Success? ==> r.value == FirstOfMonth(text)
    ensures r.Failure? && IsYearMonthText(text) ==> r.error == OutOfBounds
    ensures !IsYearMonthText(text) ==> r == Failure(Unparsable)
  {
    if |text| == 6 && AllDigits(text) then
      AppendDayFacts(text);
      ParseDate(text + "01")
    else
      ParseDate(text + "01")
  }

  lemma AppendDayFacts(text: string)
    requires |text| == 6 && AllDigits(text)
    ensures AllDigits(text + "01")
    ensures (text + "01")[..4] == text[..4] && (text + "01")[4..6] == text[4..]
    ensures NumberValue((text + "01")[6..]) == 1
  {
    var s := text + "01";
    assert s[6..] == "01";
    assert "01"[..1] == "0";
    assert "0"[..0] == "";
  }

  /** `strftime('%Y-%m')`. */
  function FormatYearMonth(d: Date): string {
    Padded(d.year, 4) + "-" + Padded(d.month, 2)
  }

  /** `str()` of a timestamp at midnight in a datetime column: `YYYY-MM-DD`. */
  function DateText(d: Date): (s: string)
    ensures |s| == 10
  {
    Padded(d.year, 4) + "-" + Padded(d.month, 2) + "-" + Padded(d.day, 2)
  }

  /** The string with every `-` removed. */
  function RemoveHyphens(s: string): (r: string)
    ensures '-' !in r
  {
    if |s| == 0 then []
    else RemoveHyphens(s[..|s| - 1]) + (if s[|s| - 1] == '-' then [] else [s[|s| - 1]])
  }

  lemma {:induction false} RemoveHyphensDigits(s: string)
    requires AllDigits(s)
    ensures RemoveHyphens(s) == s
  {
    if |s| > 0 {
      RemoveHyphensDigits(s[..|s| - 1]);
      assert s == s[..|s| - 1] + [s[|s| - 1]];
    }
  }

  lemma {:induction false} RemoveHyphensAppend(a: string, b: string)
    ensures RemoveHyphens(a + b) == RemoveHyphens(a) + RemoveHyphens(b)
    decreases |b|
  {
    if |b| > 0 {
      var n := |b| - 1;
      assert (a + b)[..|a + b| - 1] == a + b[..n];
      RemoveHyphensAppend(a, b[..n]);
    }
    else {
      assert a + b == a;
    }
  }

  /** Rendering a digit string's value at its own width gives it back. */
  lemma {:induction false} PaddedNumberValue(s: string)
    requires AllDigits(s)
    ensures Padded(NumberValue(s), |s|) == s
  {
    if |s| > 0 {
      var n := |s| - 1;
      var v := NumberValue(s[..n]);
      var d := DigitValue(s[n]);
      assert (v * 10 + d) / 10 == v && (v * 10 + d) % 10 == d;
      PaddedNumberValue(s[..n]);
      assert s == s[..n] + [s[n]];
    }
  }

  /** The formatted period is the year digits, a hyphen and the month digits
      of the original text, so removing the hyphen gives the text back. */
  lemma FormatRoundTrip(text: string)
    requires ParsePeriod(text).Success?
    ensures FormatYearMonth(ParsePeriod(text).value) == text[..4] + "-" + text[4..]
    ensures RemoveHyphens(FormatYearMonth(ParsePeriod(text).value)) == text
  {
    var d := ParsePeriod(text).value;
    PaddedNumberValue(text[..4]);
    PaddedNumberValue(text[4..]);
    assert FormatYearMonth(d) == text[..4] + "-" + text[4..];
    RemoveHyphensAppend(text[..4] + "-", text[4..]);
    RemoveHyphensAppend(text[..4], "-");
    RemoveHyphensDigits(text[..4]);
    RemoveHyphensDigits(text[4..]);
    assert RemoveHyphens("-") == [] by {
      assert "-"[..0] == [];
    }
    assert text[..4] + text[4..] == text;
  }

  /** An already converted timestamp does not convert again: its text
      `YYYY-MM-DD` followed by `01` is not an eight-digit date. */
  lemma ConvertedDateRejected(d: Date)
    ensures ParsePeriod(DateText(d)) == Failure(Unparsable)
  {
  }

  /** Reading back the digits of a `w`-wide padding of a number below
      `10^w` gives the number. */
  lemma {:induction false} NumberValuePadded(n: nat, w: nat)
    requires n < Pow10(w)
    ensures NumberValue(Padded(n, w)) == n
  {
    if w > 0 {
      NumberValuePadded(n / 10, w - 1);
      var s := Padded(n / 10, w - 1) + [DigitChar(n % 10)];
      assert s[..|s| - 1] == Padded(n / 10, w - 1);
    }
  }

  /** Without leading zeros, a number of `w` digits renders as its
      `w`-wide padding. */
  lemma {:induction false} NatTextPadded(n: nat, w: nat)
    requires w > 0 && Pow10(w - 1) <= n < Pow10(w)
    ensures NatText(n) == Padded(n, w)
  {
    if w == 1 {
      assert Padded(n / 10, 0) == [];
    } else {
      assert n >= 10;
      assert Pow10(w - 2) <= n / 10 < Pow10(w - 1);
      NatTextPadded(n / 10, w - 1);
    }
  }

  /** Two-digit splitting of a number: its last two digits are the last
      digit of `n / 10` followed by the last digit of `n`. */
  lemma LastTwoDigits(n: nat)
    ensures n / 100 == (n / 10) / 10
    ensures (n % 100) / 10 == (n / 10) % 10 && (n % 100) % 10 == n % 10
  {
  }

  /** The six-digit rendering of `n` splits into its year digits and its
      month digits. */
  lemma IntTextSplit(n: int)
    requires 100000 <= n <= 999999
    ensures |IntText(n)| == 6 && AllDigits(IntText(n))
    ensures IntText(n)[..4] == Padded(n / 100, 4) && IntText(n)[4..] == Padded(n % 100, 2)
  {
    assert Pow10(6) == 1000000 && Pow10(5) == 100000;
    NatTextPadded(n, 6);
    LastTwoDigits(n);
    var q, r1, r2 := n / 100, n % 10, (n / 10) % 10;
    var high := Padded(q, 4);
    assert Padded(n / 10, 5) == high + [DigitChar(r2)];
    assert Padded(n, 6) == high + [DigitChar(r2), DigitChar(r1)];
    assert Padded(n % 100, 2) == [DigitChar(r2), DigitChar(r1)] by {
      assert Padded((n % 100) / 10, 1) == [DigitChar(r2)];
    }
  }

  /** An integer period `YYYYMM` (six digits) converts exactly when its
      last two digits are a month and the month's first day is in the
      timestamp range, and then yields year `n / 100`, month `n % 100`, day 1. */
  lemma IntPeriod(n: int)
    requires 100000 <= n <= 999999
    ensures ParsePeriod(IntText(n)).Success?
            <==> 1 <= n % 100 <= 12 && InStampRange(Date(n / 100, n % 100, 1))
    ensures ParsePeriod(IntText(n)).Success?
            ==> ParsePeriod(IntText(n)).value == Date(n / 100, n % 100, 1)
  {
    var s := IntText(n);
    IntTextSplit(n);
    assert Pow10(4) == 10000 && Pow10(2) == 100;
    NumberValuePadded(n / 100, 4);
    NumberValuePadded(n % 100, 2);
    assert IsYearMonthText(s) <==> 1 <= n % 100 <= 12;
    assert IsYearMonthText(s) ==> FirstOfMonth(s) == Date(n / 100, n % 100, 1);
  }
}

=== FILE: preprocess.dfy ===
/** `DataPreProcessor`: the four table steps and the pipeline that runs
    them in the order filter, convert, fill, deduplicate. Each step returns
    a new table; the caller's table is a value and is never changed. */
module Preprocess {
  import opened Wrappers
  import opened Seqs
  import opened Tables
  import Period
  import Fill
  import Dedupe

  // ---------------------------------------------------------------------
  // filter_airlines

  /** `isin(airlines)` for one cell: present text equal to a listed name. */
  predicate AirlineAllowed(c: Cell, airlines: seq<string>) {
    c.Some? && c.value.Text? && c.value.s in airlines
  }

  /** The rows whose airline cell is in the allow-list, in order
      (`df[df['Operating Airline'].isin(airlines)]`). */
  function AirlineRows(t: Table, airlines: seq<string>): (r: seq<Row>)
    requires WellFormed(t) && AirlineColumn in t.columns
  {
    var j := ColumnIndex(t.columns, AirlineColumn).value;
    Select(t.rows, seq(|t.rows|, i requires 0 <= i < |t.rows| => AirlineAllowed(t.rows[i][j], airlines)))
  }

  /** The allow-list selection keeps exactly the rows with a listed
      airline, each position once, in their original order. */
  lemma AirlineRowsMeaning(t: Table, airlines: seq<string>)
    requires WellFormed(t) && AirlineColumn in t.columns
    ensures IsSubsequence(AirlineRows(t, airlines), t.rows)
    ensures forall row :: row in AirlineRows(t, airlines) <==>
              row in t.rows && AirlineAllowed(CellAt(t.columns, row, AirlineColumn), airlines)
    ensures exists idx :: Embedding(idx, AirlineRows(t, airlines), t.rows)
              && forall i :: 0 <= i < |t.rows| ==>
                   (i in idx <==> AirlineAllowed(CellAt(t.columns, t.rows[i], AirlineColumn), airlines))
  {
    var j := ColumnIndex(t.columns, AirlineColumn).value;
    var keep := seq(|t.rows|, i requires 0 <= i < |t.rows| => AirlineAllowed(t.rows[i][j], airlines));
    SelectIsSubsequence(t.rows, keep);
    forall row
      ensures row in AirlineRows(t, airlines) <==>
              row in t.rows && AirlineAllowed(CellAt(t.columns, row, AirlineColumn), airlines)
    {
      SelectMembers(t.rows, keep, row);
    }
    AirlineRowsPositions(t, airlines, j, keep);
  }

  lemma AirlineRowsPositions(t: Table, airlines: seq<string>, j: nat, keep: seq<bool>)
    requires WellFormed(t) && ColumnIndex(t.columns, AirlineColumn) == Some(j)
    requires keep == seq(|t.rows|, i requires 0 <= i < |t.rows| => AirlineAllowed(t.rows[i][j], airlines))
    ensures exists idx :: Embedding(idx, AirlineRows(t, airlines), t.rows)
              && forall i :: 0 <= i < |t.rows| ==>
                   (i in idx <==> AirlineAllowed(CellAt(t.columns, t.rows[i], AirlineColumn), airlines))
  {
    SelectAt(t.rows, keep);
    var idx := SelectedIndices(keep);
    assert Embedding(idx, AirlineRows(t, airlines), t.rows);
    forall i | 0 <= i < |t.rows|
      ensures i in idx <==> AirlineAllowed(CellAt(t.columns, t.rows[i], AirlineColumn), airlines)
    {
      assert CellAt(t.columns, t.rows[i], AirlineColumn) == t.rows[i][j];
      assert i in idx <==> keep[i];
    }
  }

  /** `filter_airlines(airlines_list, max_records)`. A non-empty list keeps
      only the listed airlines (the airline column must exist); an empty
      or absent list keeps every row. Then the first `maxRecords` rows are
      kept. */
  function FilterAirlines(t: Table, airlines: seq<string>, maxRecords: nat): (r: Result<Table, Error>)
    requires WellFormed(t)
    ensures r.Failure? <==> |airlines| > 0 && AirlineColumn !in t.columns
    ensures r.Failure? ==> r.error == MissingColumn(AirlineColumn)
    ensures r.Success? ==> r.value.columns == t.columns && WellFormed(r.value)
    ensures r.Success? ==> |r.value.rows| <= maxRecords && IsSubsequence(r.value.rows, t.rows)
    ensures r.Success? && |airlines| == 0 ==> r.value.rows == Head(t.rows, maxRecords)
    ensures r.Success? && |airlines| > 0 ==>
              r.value.rows == Head(AirlineRows(t, airlines), maxRecords)
              && forall row :: row in r.value.rows ==> AirlineAllowed(CellAt(t.columns, row, AirlineColumn), airlines)
  {
    if |airlines| > 0 then
      if AirlineColumn in t.columns then
        var kept := AirlineRows(t, airlines);
        AirlineRowsMeaning(t, airlines);
        HeadIsSubsequence(kept, maxRecords);
        SubsequenceTransitive(Head(kept, maxRecords), kept, t.rows);
        SubsequenceMembers(Head(kept, maxRecords), kept);
        Success(Table(t.columns, Head(kept, maxRecords)))
      else
        Failure(MissingColumn(AirlineColumn))
    else
      HeadIsSubsequence(t.rows, maxRecords);
      SubsequenceMembers(Head(t.rows, maxRecords), t.rows);
      Success(Table(t.columns, Head(t.rows, maxRecords)))
  }

  // ---------------------------------------------------------------------
  // convert_date_columns

  /** Whether the `Activity Period` column has pandas' float dtype: it holds
      integers and at least one missing value, and a NaN turns a column of
      integers into floats. Selecting rows keeps a column's dtype, so this
      is a property of the table the preprocessor was built from. */
  predicate FloatPeriods(t: Table) {
    && PeriodColumn in t.columns
    && (exists i :: 0 <= i < |t.rows| && CellAt(t.columns, t.rows[i], PeriodColumn).None?)
    && forall i :: 0 <= i < |t.rows| && CellAt(t.columns, t.rows[i], PeriodColumn).Some? ==>
         CellAt(t.columns, t.rows[i], PeriodColumn).value.Int?
  }

  /** `astype(str)` of a period cell: in a float column an integer renders
      with a trailing `.0`. */
  function PeriodText(c: Cell, floatColumn: bool): string {
    if floatColumn && c.Some? && c.value.Int? then Period.IntText(c.value.i) + ".0" else CellText(c)
  }

  /** A float-rendered integer never converts: its `.` is not a digit. */
  lemma FloatPeriodRejected(n: int)
    ensures Period.ParsePeriod(PeriodText(Some(Int(n)), true)) == Failure(Period.Unparsable)
  {
    var s := Period.IntText(n) + ".0";
    assert !Period.IsDigit(s[|s| - 2]);
  }

  /** The conversion of a row's `Activity Period` cell. */
  function RowPeriod(columns: seq<string>, row: Row, floatColumn: bool): Result<Period.Date, Period.PeriodError> {
    Period.ParsePeriod(PeriodText(CellAt(columns, row, PeriodColumn), floatColumn))
  }

  /** Row `after` (under `columns'`) is row `before` (under `columns`) with
      its period replaced by the parsed timestamp, the formatted period set,
      and every other column unchanged. */
  predicate Converted(columns: seq<string>, before: Row, floatColumn: bool, columns': seq<string>, after: Row) {
    && RowPeriod(columns, before, floatColumn).Success?
    && CellAt(columns', after, PeriodColumn) == Some(Stamp(RowPeriod(columns, before, floatColumn).value))
    && CellAt(columns', after, FormattedColumn) == Some(Text(Period.FormatYearMonth(RowPeriod(columns, before, floatColumn).value)))
    && forall c :: c in columns && c != PeriodColumn && c != FormattedColumn ==>
         CellAt(columns', after, c) == CellAt(columns, before, c)
  }

  /** Parse every text in order; the first that does not parse aborts the
      whole sequence, reported with its position counted from `first`. */
  function ParseAll(texts: seq<string>, parse: string -> Result<Period.Date, Period.PeriodError>, first: nat)
    : (r: Result<seq<Period.Date>, Error>)
    ensures r.Success? <==> forall i :: 0 <= i < |texts| ==> parse(texts[i]).Success?
    ensures r.Success? ==> |r.value| == |texts|
    ensures r.Success? ==> forall i :: 0 <= i < |texts| ==> parse(texts[i]) == Success(r.value[i])
    ensures r.Failure? ==>
              && r.error.InvalidPeriod?
              && first <= r.error.row < first + |texts|
              && parse(texts[r.error.row - first]) == Failure(r.error.reason)
              && forall i :: 0 <= i < r.error.row - first ==> parse(texts[i]).Success?
    decreases |texts|
  {
    if |texts| == 0 then Success([])
    else
      match parse(texts[0])
      case Failure(e) => Failure(InvalidPeriod(first, e))
      case Success(d) =>
        var tail := ParseAll(texts[1..], parse, first + 1);
        if tail.Failure? then tail
        else
          var r := [d] + tail.value;
          assert forall i :: 1 <= i < |texts| ==> r[i] == tail.value[i - 1];
          Success(r)
  }

  /** The text of the period cell (column `j`) of every row. */
  function PeriodTexts(rows: seq<Row>, j: nat, floatColumn: bool): (r: seq<string>)
    requires forall i :: 0 <= i < |rows| ==> j < |rows[i]|
    ensures |r| == |rows| && forall i :: 0 <= i < |rows| ==> r[i] == PeriodText(rows[i][j], floatColumn)
  {
    seq(|rows|, i requires 0 <= i < |rows| => PeriodText(rows[i][j], floatColumn))
  }

  /** Parse the period cell (column `j`) of every row; the first row that
      does not convert aborts the whole column, reported with its
      position. */
  function ParsePeriods(rows: seq<Row>, j: nat, floatColumn: bool): (r: Result<seq<Period.Date>, Error>)
    requires forall i :: 0 <= i < |rows| ==> j < |rows[i]|
    ensures r.Success? <==> forall i :: 0 <= i < |rows| ==> Period.ParsePeriod(PeriodText(rows[i][j], floatColumn)).Success?
    ensures r.Success? ==> |r.value| == |rows|
    ensures r.Success? ==> forall i :: 0 <= i < |rows| ==>
              Period.ParsePeriod(PeriodText(rows[i][j], floatColumn)) == Success(r.value[i])
    ensures r.Failure? ==>
              && r.error.InvalidPeriod?
              && r.error.row < |rows|
              && Period.ParsePeriod(PeriodText(rows[r.error.row][j], floatColumn)) == Failure(r.error.reason)
              && forall i :: 0 <= i < r.error.row ==> Period.ParsePeriod(PeriodText(rows[i][j], floatColumn)).Success?
  {
    ParseAll(PeriodTexts(rows, j, floatColumn), Period.ParsePeriod, 0)
  }

  /** One row converted: the period cell (position `j`) becomes the
      timestamp, and the formatted period is written at position `k`, or
      appended when the column is new. */
  function ConvertRow(row: Row, j: nat, k: Option<nat>, d: Period.Date): Row
    requires j < |row| && (k.Some? ==> k.value < |row|)
  {
    var stamped := row[j := Some(Stamp(d))];
    var formatted := Some(Text(Period.FormatYearMonth(d)));
    match k
    case Some(k) => stamped[k := formatted]
    case None => stamped + [formatted]
  }

  /** The columns after conversion: the formatted column is added unless
      it is already there. */
  function ConvertedColumns(columns: seq<string>): seq<string> {
    if FormattedColumn in columns then columns else columns + [FormattedColumn]
  }

  lemma ConvertedColumnsUnique(columns: seq<string>)
    requires NoDuplicates(columns)
    ensures NoDuplicates(ConvertedColumns(columns))
  {
    var columns' := ConvertedColumns(columns);
    forall a, b | 0 <= a < b < |columns'|
      ensures columns'[a] != columns'[b]
    {
      if b == |columns| {
        assert columns'[a] == columns[a];
      }
    }
  }

  lemma ColumnNamesDiffer()
    ensures PeriodColumn != FormattedColumn && AirlineColumn != FormattedColumn && AirlineColumn != PeriodColumn
  {
    assert PeriodColumn[0] != FormattedColumn[0];
    assert AirlineColumn[0] != FormattedColumn[0];
    assert AirlineColumn[0] != PeriodColumn[0];
  }

  lemma ConvertRowWrittenInPlace(columns: seq<string>, row: Row, d: Period.Date, j: nat, k: nat)
    requires |row| == |columns|
    requires ColumnIndex(columns, PeriodColumn) == Some(j) && ColumnIndex(columns, FormattedColumn) == Some(k)
    ensures var after := ConvertRow(row, j, Some(k), d);
            && CellAt(columns, after, PeriodColumn) == Some(Stamp(d))
            && CellAt(columns, after, FormattedColumn) == Some(Text(Period.FormatYearMonth(d)))
  {
    ColumnNamesDiffer();
    assert j != k;
  }

  lemma ConvertRowWrittenAppended(columns: seq<string>, row: Row, d: Period.Date, j: nat)
    requires NoDuplicates(columns) && |row| == |columns|
    requires ColumnIndex(columns, PeriodColumn) == Some(j) && FormattedColumn !in columns
    ensures var after := ConvertRow(row, j, None, d);
            && CellAt(columns + [FormattedColumn], after, PeriodColumn) == Some(Stamp(d))
            && CellAt(columns + [FormattedColumn], after, FormattedColumn) == Some(Text(Period.FormatYearMonth(d)))
  {
    ConvertedColumnsUnique(columns);
    ColumnIndexAppend(columns, FormattedColumn, PeriodColumn);
    ColumnIndexUnique(columns + [FormattedColumn], FormattedColumn, |columns|);
  }

  /** Converting a row writes the timestamp and its `YYYY-MM` under their
      column names. */
  lemma ConvertRowWritten(columns: seq<string>, row: Row, d: Period.Date)
    requires NoDuplicates(columns) && |row| == |columns| && PeriodColumn in columns
    ensures var after := ConvertRow(row, ColumnIndex(columns, PeriodColumn).value, ColumnIndex(columns, FormattedColumn), d);
            && CellAt(ConvertedColumns(columns), after, PeriodColumn) == Some(Stamp(d))
            && CellAt(ConvertedColumns(columns), after, FormattedColumn) == Some(Text(Period.FormatYearMonth(d)))
  {
    var j := ColumnIndex(columns, PeriodColumn).value;
    match ColumnIndex(columns, FormattedColumn)
    case Some(k) => ConvertRowWrittenInPlace(columns, row, d, j, k);
    case None => ConvertRowWrittenAppended(columns, row, d, j);
  }

  lemma ConvertRowKeepsInPlace(columns: seq<string>, row: Row, d: Period.Date, c: string, j: nat, k: nat, l: nat)
    requires |row| == |columns|
    requires ColumnIndex(columns, PeriodColumn) == Some(j) && ColumnIndex(columns, FormattedColumn) == Some(k)
    requires ColumnIndex(columns, c) == Some(l) && l != j && l != k
    ensures CellAt(columns, ConvertRow(row, j, Some(k), d), c) == CellAt(columns, row, c)
  {
  }

  lemma ConvertRowKeepsAppended(columns: seq<string>, row: Row, d: Period.Date, c: string, j: nat, l: nat)
    requires |row| == |columns| && c in columns
    requires ColumnIndex(columns, PeriodColumn) == Some(j) && FormattedColumn !in columns
    requires ColumnIndex(columns, c) == Some(l) && l != j
    ensures CellAt(columns + [FormattedColumn], ConvertRow(row, j, None, d), c) == CellAt(columns, row, c)
  {
    ColumnIndexAppend(columns, FormattedColumn, c);
  }

  /** Converting a row leaves every other column as it was. */
  lemma ConvertRowKeeps(columns: seq<string>, row: Row, d: Period.Date, c: string)
    requires NoDuplicates(columns) && |row| == |columns| && PeriodColumn in columns
    requires c in columns && c != PeriodColumn && c != FormattedColumn
    ensures var after := ConvertRow(row, ColumnIndex(columns, PeriodColumn).value, ColumnIndex(columns, FormattedColumn), d);
            CellAt(ConvertedColumns(columns), after, c) == CellAt(columns, row, c)
  {
    var j := ColumnIndex(columns, PeriodColumn).value;
    var l := ColumnIndex(columns, c).value;
    match ColumnIndex(columns, FormattedColumn)
    case Some(k) => ConvertRowKeepsInPlace(columns, row, d, c, j, k, l);
    case None => ConvertRowKeepsAppended(columns, row, d, c, j, l);
  }

  lemma ConvertRowMeaning(columns: seq<string>, row: Row, floatColumn: bool, d: Period.Date)
    requires NoDuplicates(columns) && |row| == |columns| && PeriodColumn in columns
    requires RowPeriod(columns, row, floatColumn) == Success(d)
    ensures Converted(columns, row, floatColumn, ConvertedColumns(columns),
                      ConvertRow(row, ColumnIndex(columns, PeriodColumn).value, ColumnIndex(columns, FormattedColumn), d))
  {
    ConvertRowWritten(columns, row, d);
    forall c | c in columns && c != PeriodColumn && c != FormattedColumn
      ensures CellAt(ConvertedColumns(columns), ConvertRow(row, ColumnIndex(columns, PeriodColumn).value, ColumnIndex(columns, FormattedColumn), d), c)
              == CellAt(columns, row, c)
    {
      ConvertRowKeeps(columns, row, d, c);
    }
  }

  /** `convert_date_columns()`: every `Activity Period` is rendered as text
      (as floats when `floatColumn`, the column's dtype, says so), given
      day `01` and parsed strictly; the first value that does not
      convert raises, so no table comes back. Otherwise every period
      becomes its timestamp and `Formatted_Activity_Period` holds `YYYY-MM`. */
  function ConvertDateColumns(t: Table, floatColumn: bool): (r: Result<Table, Error>)
    requires WellFormed(t)
    ensures r.Success? <==> PeriodColumn in t.columns
                            && forall i :: 0 <= i < |t.rows| ==> RowPeriod(t.columns, t.rows[i], floatColumn).Success?
    ensures PeriodColumn !in t.columns ==> r == Failure(MissingColumn(PeriodColumn))
    ensures r.Failure? && PeriodColumn in t.columns ==>
              && r.error.InvalidPeriod? && r.error.row < |t.rows|
              && RowPeriod(t.columns, t.rows[r.error.row], floatColumn) == Failure(r.error.reason)
              && forall i :: 0 <= i < r.error.row ==> RowPeriod(t.columns, t.rows[i], floatColumn).Success?
    ensures r.Success? ==> WellFormed(r.value) && |r.value.rows| == |t.rows|
    ensures r.Success? ==> r.value.columns == ConvertedColumns(t.columns)
    ensures r.Success? ==> forall i :: 0 <= i < |t.rows| ==> Converted(t.columns, t.rows[i], floatColumn, r.value.columns, r.value.rows[i])
  {
    match ColumnIndex(t.columns, PeriodColumn)
    case None => Failure(MissingColumn(PeriodColumn))
    case Some(j) =>
      var dates :- ParsePeriods(t.rows, j, floatColumn);
      var k := ColumnIndex(t.columns, FormattedColumn);
      var rows := seq(|t.rows|, i requires 0 <= i < |t.rows| => ConvertRow(t.rows[i], j, k, dates[i]));
      ConvertAllRows(t, floatColumn, dates, rows);
      Success(Table(ConvertedColumns(t.columns), rows))
  }

  lemma ConvertAllRows(t: Table, floatColumn: bool, dates: seq<Period.Date>, rows: seq<Row>)
    requires WellFormed(t) && PeriodColumn in t.columns && |dates| == |t.rows|
    requires forall i :: 0 <= i < |t.rows| ==> RowPeriod(t.columns, t.rows[i], floatColumn) == Success(dates[i])
    requires |rows| == |t.rows|
    requires forall i :: 0 <= i < |t.rows| ==>
               rows[i] == ConvertRow(t.rows[i], ColumnIndex(t.columns, PeriodColumn).value,
                                     ColumnIndex(t.columns, FormattedColumn), dates[i])
    ensures WellFormed(Table(ConvertedColumns(t.columns), rows))
    ensures forall i :: 0 <= i < |t.rows| ==> Converted(t.columns, t.rows[i], floatColumn, ConvertedColumns(t.columns), rows[i])
  {
    forall i | 0 <= i < |t.rows|
      ensures Converted(t.columns, t.rows[i], floatColumn, ConvertedColumns(t.columns), rows[i])
    {
      ConvertRowMeaning(t.columns, t.rows[i], floatColumn, dates[i]);
    }
    ConvertedColumnsUnique(t.columns);
  }

  // ---------------------------------------------------------------------
  // handle_missing_values, remove_duplicates

  /** `handle_missing_values()`: forward fill down every column. */
  function HandleMissingValues(t: Table): (r: Table)
    requires WellFormed(t)
    ensures r.columns == t.columns && WellFormed(r) && |r.rows| == |t.rows|
    ensures forall i, j :: 0 <= i < |t.rows| && 0 <= j < |t.columns| ==>
              r.rows[i][j] == Fill.LastPresent(t.rows, |t.columns|, i, j)
    ensures forall i, c :: 0 <= i < |t.rows| && CellAt(t.columns, t.rows[i], c).Some? ==>
              CellAt(r.columns, r.rows[i], c) == CellAt(t.columns, t.rows[i], c)
  {
    Table(t.columns, Fill.ForwardFill(t.rows, |t.columns|))
  }

  /** `remove_duplicates()`: drop every row equal to an earlier one. The
      kept rows are the first occurrences, in input order. */
  function RemoveDuplicates(t: Table): (r: Table)
    requires WellFormed(t)
    ensures r.columns == t.columns && WellFormed(r)
    ensures NoDuplicates(r.rows) && IsSubsequence(r.rows, t.rows)
    ensures forall row :: row in r.rows <==> row in t.rows
    ensures Dedupe.KeepsFirstOccurrences(r.rows, t.rows)
  {
    Dedupe.DropDuplicatesDistinct(t.rows);
    Dedupe.DropDuplicatesSubsequence(t.rows);
    Dedupe.DropDuplicatesMembers(t.rows);
    Dedupe.DropDuplicatesKeepsFirst(t.rows);
    Table(t.columns, Dedupe.DropDuplicates(t.rows))
  }

  // ---------------------------------------------------------------------
  // preprocess

  /** A row whose period is a timestamp and whose formatted period is that
      timestamp's `YYYY-MM`. */
  predicate HasFormattedPeriod(columns: seq<string>, row: Row) {
    var p := CellAt(columns, row, PeriodColumn);
    p.Some? && p.value.Stamp?
    && CellAt(columns, row, FormattedColumn) == Some(Text(Period.FormatYearMonth(p.value.d)))
  }

  /** Result row `row` (under `columns'`) comes from input row `src` (under
      `columns`): its period is the converted period of `src` with its
      `YYYY-MM` text, and every other cell present in `src` is unchanged. */
  predicate DerivedFrom(columns: seq<string>, src: Row, floatColumn: bool, columns': seq<string>, row: Row) {
    && RowPeriod(columns, src, floatColumn).Success?
    && CellAt(columns', row, PeriodColumn) == Some(Stamp(RowPeriod(columns, src, floatColumn).value))
    && CellAt(columns', row, FormattedColumn) == Some(Text(Period.FormatYearMonth(RowPeriod(columns, src, floatColumn).value)))
    && forall c :: c in columns && c != PeriodColumn && c != FormattedColumn && CellAt(columns, src, c).Some? ==>
         CellAt(columns', row, c) == CellAt(columns, src, c)
  }

  /** The stages before deduplication succeed, and `rows` holds exactly the
      first occurrences of the rows of the filled table, in their order there. */
  ghost predicate FilledRowsOnce(t: Table, airlines: seq<string>, maxRecords: nat, rows: seq<Row>)
    requires WellFormed(t)
  {
    && FilterAirlines(t, airlines, maxRecords).Success?
    && ConvertDateColumns(FilterAirlines(t, airlines, maxRecords).value, FloatPeriods(t)).Success?
    && var filled := HandleMissingValues(ConvertDateColumns(FilterAirlines(t, airlines, maxRecords).value, FloatPeriods(t)).value);
       && IsSubsequence(rows, filled.rows)
       && (forall row :: row in rows <==> row in filled.rows)
       && Dedupe.KeepsFirstOccurrences(rows, filled.rows)
  }

  /** Every row (under `columns'`) comes from some row of the input table. */
  predicate RowsFromInput(t: Table, columns': seq<string>, rows: seq<Row>) {
    forall row :: row in rows ==> exists src :: src in t.rows && DerivedFrom(t.columns, src, FloatPeriods(t), columns', row)
  }

  /** `preprocess(airlines_list, max_records)`: filter, convert, fill,
      deduplicate, in that order; a raising step aborts the pipeline. The
      period column keeps the dtype of the input table throughout. A failure
      is the error of the step that raised; a result holds the first
      occurrence of each row of the filled table, in order;
      it has at most `maxRecords` rows, missing cells only at the top of a
      column, and every row comes from an input row whose period it holds
      as a timestamp with its `YYYY-MM` text. */
  function Preprocess(t: Table, airlines: seq<string>, maxRecords: nat): (r: Result<Table, Error>)
    requires WellFormed(t)
    ensures |airlines| > 0 && AirlineColumn !in t.columns ==> r == Failure(MissingColumn(AirlineColumn))
    ensures PeriodColumn !in t.columns ==> r.Failure?
    ensures (|airlines| == 0 || AirlineColumn in t.columns) && PeriodColumn !in t.columns ==>
              r == Failure(MissingColumn(PeriodColumn))
    ensures |airlines| == 0 || AirlineColumn in t.columns ==>
              && FilterAirlines(t, airlines, maxRecords).Success?
              && var converted := ConvertDateColumns(FilterAirlines(t, airlines, maxRecords).value, FloatPeriods(t));
                 && (r.Failure? <==> converted.Failure?)
                 && (r.Failure? ==> r.error == converted.error)
    ensures r.Success? ==> FilledRowsOnce(t, airlines, maxRecords, r.value.rows)
    ensures r.Success? ==> WellFormed(r.value) && r.value.columns == ConvertedColumns(t.columns)
    ensures r.Success? ==> |r.value.rows| <= maxRecords && NoDuplicates(r.value.rows)
    ensures r.Success? ==> Fill.GapsOnTop(r.value.rows, |r.value.columns|)
    ensures r.Success? ==> forall row :: row in r.value.rows ==> HasFormattedPeriod(r.value.columns, row)
    ensures r.Success? ==> RowsFromInput(t, r.value.columns, r.value.rows)
    ensures r.Success? && |airlines| > 0 ==>
              forall row :: row in r.value.rows ==> AirlineAllowed(CellAt(r.value.columns, row, AirlineColumn), airlines)
  {
    var floatColumn := FloatPeriods(t);
    var filtered :- FilterAirlines(t, airlines, maxRecords);
    var converted :- ConvertDateColumns(filtered, floatColumn);
    var filled := HandleMissingValues(converted);
    var result := RemoveDuplicates(filled);
    SubsequenceMembers(filtered.rows, t.rows);
    PipelineRows(t, airlines, floatColumn, filtered, converted, filled, result);
    Fill.ForwardFillGapsOnTop(converted.rows, |converted.columns|);
    Fill.SubsequenceGapsOnTop(result.rows, filled.rows, |filled.columns|);
    Success(result)
  }

  lemma PipelineRows(t: Table, airlines: seq<string>, floatColumn: bool,
                     filtered: Table, converted: Table, filled: Table, result: Table)
    requires WellFormed(t) && WellFormed(filtered) && WellFormed(converted)
    requires filtered.columns == t.columns && forall row :: row in filtered.rows ==> row in t.rows
    requires |airlines| > 0 ==>
               forall row :: row in filtered.rows ==> AirlineAllowed(CellAt(t.columns, row, AirlineColumn), airlines)
    requires ConvertDateColumns(filtered, floatColumn) == Success(converted)
    requires filled == HandleMissingValues(converted)
    requires result.columns == filled.columns && forall row :: row in result.rows ==> row in filled.rows
    ensures forall row :: row in result.rows ==> HasFormattedPeriod(result.columns, row)
    ensures forall row :: row in result.rows ==>
              exists src :: src in t.rows && DerivedFrom(t.columns, src, floatColumn, result.columns, row)
    ensures |airlines| > 0 ==>
              forall row :: row in result.rows ==> AirlineAllowed(CellAt(result.columns, row, AirlineColumn), airlines)
  {
    forall row | row in result.rows
      ensures HasFormattedPeriod(result.columns, row)
      ensures exists src :: src in t.rows && DerivedFrom(t.columns, src, floatColumn, result.columns, row)
      ensures |airlines| > 0 ==> AirlineAllowed(CellAt(result.columns, row, AirlineColumn), airlines)
    {
      var i :| 0 <= i < |filled.rows| && filled.rows[i] == row;
      PipelineRow(t, airlines, floatColumn, filtered, converted, filled, i);
    }
  }

  /** One row of the filled table: where it comes from. */
  lemma PipelineRow(t: Table, airlines: seq<string>, floatColumn: bool,
                    filtered: Table, converted: Table, filled: Table, i: nat)
    requires WellFormed(t) && WellFormed(filtered) && WellFormed(converted)
    requires filtered.columns == t.columns
    requires |airlines| > 0 ==>
               forall row :: row in filtered.rows ==> AirlineAllowed(CellAt(t.columns, row, AirlineColumn), airlines)
    requires ConvertDateColumns(filtered, floatColumn) == Success(converted)
    requires filled == HandleMissingValues(converted)
    requires i < |filled.rows|
    ensures i < |filtered.rows|
    ensures HasFormattedPeriod(filled.columns, filled.rows[i])
    ensures DerivedFrom(t.columns, filtered.rows[i], floatColumn, filled.columns, filled.rows[i])
    ensures |airlines| > 0 ==> AirlineAllowed(CellAt(filled.columns, filled.rows[i], AirlineColumn), airlines)
  {
    var columns, row, before := converted.columns, filled.rows[i], filtered.rows[i];
    assert Converted(t.columns, before, floatColumn, columns, converted.rows[i]);
    var d := RowPeriod(t.columns, before, floatColumn).value;
    assert CellAt(columns, row, PeriodColumn) == Some(Stamp(d));
    assert CellAt(columns, row, FormattedColumn) == Some(Text(Period.FormatYearMonth(d)));
    forall c | c in t.columns && c != PeriodColumn && c != FormattedColumn && CellAt(t.columns, before, c).Some?
      ensures CellAt(columns, row, c) == CellAt(t.columns, before, c)
    {
      assert CellAt(columns, converted.rows[i], c) == CellAt(t.columns, before, c);
    }
    if |airlines| > 0 {
      assert before in filtered.rows;
      assert CellAt(columns, converted.rows[i], AirlineColumn) == CellAt(t.columns, before, AirlineColumn);
    }
  }

  /** The pipeline fails exactly when a needed column is absent or a row
      that survives the filter and the cap has a period that does not
      convert. Rows cut off are never parsed, but they still count for the
      column's dtype: their missing periods make every integer period
      render as a float. */
  lemma PreprocessOutcome(t: Table, airlines: seq<string>, maxRecords: nat)
    requires WellFormed(t)
    requires |airlines| == 0 || AirlineColumn in t.columns
    ensures Preprocess(t, airlines, maxRecords).Success?
            <==> PeriodColumn in t.columns
                 && forall row :: row in FilterAirlines(t, airlines, maxRecords).value.rows ==>
                      RowPeriod(t.columns, row, FloatPeriods(t)).Success?
  {
  }

  /** When the input's period column holds integers and a missing value,
      no period converts, so the pipeline raises on the first row that
      survives the filter and the cap, even when the missing value was
      cut off. */
  lemma PreprocessFloatPeriods(t: Table, airlines: seq<string>, maxRecords: nat)
    requires WellFormed(t) && FloatPeriods(t)
    requires |airlines| == 0 || AirlineColumn in t.columns
    ensures |FilterAirlines(t, airlines, maxRecords).value.rows| > 0 ==>
              Preprocess(t, airlines, maxRecords) == Failure(InvalidPeriod(0, Period.Unparsable))
  {
    var filtered := FilterAirlines(t, airlines, maxRecords).value;
    if |filtered.rows| == 0 {
      return;
    }
    var first := filtered.rows[0];
    SubsequenceMembers(filtered.rows, t.rows);
    assert first in t.rows;
    var c := CellAt(t.columns, first, PeriodColumn);
    if c.Some? {
      var n :| 0 <= n < |t.rows| && t.rows[n] == first;
      FloatPeriodRejected(c.value.i);
    } else {
      assert PeriodText(c, true) == "nan";
    }
    assert RowPeriod(t.columns, first, true) == Failure(Period.Unparsable);
    var converted := ConvertDateColumns(filtered, true);
    assert converted.Failure? && converted.error.row == 0;
    assert Preprocess(t, airlines, maxRecords) == Failure(converted.error);
  }

  /** A missing period removed by the cap still makes the pipeline raise:
      with periods `201501` and a missing one, keeping one row fails. */
  lemma PreprocessDroppedMissingPeriod()
    ensures Preprocess(Table([PeriodColumn], [[Some(Int(201501))], [None]]), [], 1)
            == Failure(InvalidPeriod(0, Period.Unparsable))
  {
    var t := Table([PeriodColumn], [[Some(Int(201501))], [None]]);
    assert CellAt(t.columns, t.rows[1], PeriodColumn).None?;
    assert |FilterAirlines(t, [], 1).value.rows| == 1;
    PreprocessFloatPeriods(t, [], 1);
  }

  /** Converting a converted table again raises on its first row: the
      period is now a timestamp, rendered as `YYYY-MM-DD`. */
  lemma ConvertTwiceRejected(t: Table, floatColumn: bool)
    requires WellFormed(t) && ConvertDateColumns(t, floatColumn).Success?
    requires |t.rows| > 0
    ensures ConvertDateColumns(ConvertDateColumns(t, floatColumn).value, floatColumn)
            == Failure(InvalidPeriod(0, Period.Unparsable))
  {
    var c := ConvertDateColumns(t, floatColumn).value;
    assert Converted(t.columns, t.rows[0], floatColumn, c.columns, c.rows[0]);
    var d := RowPeriod(t.columns, t.rows[0], floatColumn).value;
    assert CellAt(c.columns, c.rows[0], PeriodColumn) == Some(Stamp(d));
    Period.ConvertedDateRejected(d);
    assert RowPeriod(c.columns, c.rows[0], floatColumn) == Failure(Period.Unparsable);
  }

  /** A table without rows converts any number of times: there is no
      period to parse. */
  lemma ConvertEmptyTwice(columns: seq<string>, floatColumn: bool)
    requires WellFormed(Table(columns, [])) && PeriodColumn in columns
    ensures ConvertDateColumns(Table(columns, []), floatColumn).Success?
    ensures ConvertDateColumns(ConvertDateColumns(Table(columns, []), floatColumn).value, floatColumn)
            == Success(Table(ConvertedColumns(columns), []))
  {
  }

  /** A cap of zero yields an empty table whenever the columns the
      pipeline needs are present. */
  lemma PreprocessZeroCap(t: Table, airlines: seq<string>)
    requires WellFormed(t) && PeriodColumn in t.columns
    requires |airlines| == 0 || AirlineColumn in t.columns
    ensures Preprocess(t, airlines, 0) == Success(Table(ConvertedColumns(t.columns), []))
  {
    PreprocessOutcome(t, airlines, 0);
  }
}

=== FILE: seqs.dfy ===
/** Sequence vocabulary shared by the table operations: boolean-mask
    selection (pandas' `df[mask]`), `head(n)`, subsequences and
    duplicate-freedom. */
module Seqs {

  function Min(a: int, b: int): int {
    if a <= b then a else b
  }

  /** Every row has exactly `width` cells. */
  predicate Rectangular<V>(rows: seq<seq<V>>, width: nat) {
    forall i :: 0 <= i < |rows| ==> |rows[i]| == width
  }

  /** No element occurs twice. */
  predicate NoDuplicates<T(==)>(s: seq<T>) {
    forall i, j :: 0 <= i < j < |s| ==> s[i] != s[j]
  }

  /** `idx` embeds `a` into `b`: strictly increasing positions of `b` at
      which the elements of `a` are found, in order. */
  ghost predicate Embedding<T>(idx: seq<nat>, a: seq<T>, b: seq<T>) {
    && |idx| == |a|
    && (forall k :: 0 <= k < |idx| ==> idx[k] < |b| && a[k] == b[idx[k]])
    && (forall k, l :: 0 <= k < l < |idx| ==> idx[k] < idx[l])
  }

  /** `a` is `b` with some elements removed and the rest in their order. */
  ghost predicate IsSubsequence<T>(a: seq<T>, b: seq<T>) {
    exists idx :: Embedding(idx, a, b)
  }

  /** The positions a mask selects, in increasing order. */
  function SelectedIndices(keep: seq<bool>): (idx: seq<nat>)
    ensures forall k :: 0 <= k < |idx| ==> idx[k] < |keep| && keep[idx[k]]
    ensures forall k, l :: 0 <= k < l < |idx| ==> idx[k] < idx[l]
    ensures forall i :: 0 <= i < |keep| && keep[i] ==> i in idx
  {
    if |keep| == 0 then []
    else SelectedIndices(keep[..|keep| - 1]) + (if keep[|keep| - 1] then [|keep| - 1] else [])
  }

  /** Boolean-mask indexing `t[keep]`: the elements whose mask entry is
      true, in their original order. */
  function Select<T>(t: seq<T>, keep: seq<bool>): (r: seq<T>)
    requires |keep| == |t|
    ensures |r| <= |t|
  {
    if |t| == 0 then []
    else Select(t[..|t| - 1], keep[..|t| - 1]) + (if keep[|t| - 1] then [t[|t| - 1]] else [])
  }

  /** `head(n)`: the first `n` elements, or all of them when fewer. */
  function Head<T>(t: seq<T>, n: nat): (r: seq<T>)
    ensures |r| == Min(n, |t|)
    ensures forall i :: 0 <= i < |r| ==> r[i] == t[i]
  {
    if n <= |t| then t[..n] else t
  }

  lemma {:induction false} SelectSnoc<T>(t: seq<T>, keep: seq<bool>, x: T, b: bool)
    requires |keep| == |t|
    ensures Select(t + [x], keep + [b]) == Select(t, keep) + (if b then [x] else [])
  {
    assert (t + [x])[..|t|] == t;
    assert (keep + [b])[..|t|] == keep;
  }

  /** Mask selection returns exactly the masked positions, in order. */
  lemma {:induction false} SelectAt<T>(t: seq<T>, keep: seq<bool>)
    requires |keep| == |t|
    ensures |Select(t, keep)| == |SelectedIndices(keep)|
    ensures forall k :: 0 <= k < |Select(t, keep)| ==> Select(t, keep)[k] == t[SelectedIndices(keep)[k]]
    decreases |t|
  {
    if |t| > 0 {
      var n := |t| - 1;
      SelectAt(t[..n], keep[..n]);
      assert forall i :: 0 <= i < n ==> t[..n][i] == t[i];
    }
  }

  /** An element is selected exactly when it sits at some masked position. */
  lemma {:induction false} SelectMembers<T>(t: seq<T>, keep: seq<bool>, x: T)
    requires |keep| == |t|
    ensures x in Select(t, keep) <==> exists i :: 0 <= i < |t| && keep[i] && t[i] == x
  {
    SelectAt(t, keep);
    var r, idx := Select(t, keep), SelectedIndices(keep);
    if x in r {
      var k :| 0 <= k < |r| && r[k] == x;
      assert keep[idx[k]] && t[idx[k]] == x;
    }
    if exists i :: 0 <= i < |t| && keep[i] && t[i] == x {
      var i :| 0 <= i < |t| && keep[i] && t[i] == x;
      var k :| 0 <= k < |idx| && idx[k] == i;
      assert r[k] == x;
    }
  }

  /** Mask selection keeps the relative order of what it keeps. */
  lemma SelectIsSubsequence<T>(t: seq<T>, keep: seq<bool>)
    requires |keep| == |t|
    ensures IsSubsequence(Select(t, keep), t)
  {
    SelectAt(t, keep);
    assert Embedding(SelectedIndices(keep), Select(t, keep), t);
  }

  /** A prefix is a subsequence. */
  lemma HeadIsSubsequence<T>(t: seq<T>, n: nat)
    ensures IsSubsequence(Head(t, n), t)
  {
    var r := Head(t, n);
    var idx := seq(|r|, k requires 0 <= k < |r| => k as nat);
    assert Embedding(idx, r, t);
  }

  /** Subsequences compose. */
  lemma SubsequenceTransitive<T>(a: seq<T>, b: seq<T>, c: seq<T>)
    requires IsSubsequence(a, b) && IsSubsequence(b, c)
    ensures IsSubsequence(a, c)
  {
    var i1 :| Embedding(i1, a, b);
    var i2 :| Embedding(i2, b, c);
    var idx := seq(|i1|, k requires 0 <= k < |i1| => i2[i1[k]]);
    assert Embedding(idx, a, c);
  }

  /** Elements of a subsequence are elements of the whole. */
  lemma SubsequenceMembers<T>(a: seq<T>, b: seq<T>)
    requires IsSubsequence(a, b)
    ensures forall x :: x in a ==> x in b
  {
    var idx :| Embedding(idx, a, b);
    forall x | x in a
      ensures x in b
    {
      var k :| 0 <= k < |a| && a[k] == x;
      assert b[idx[k]] == x;
    }
  }
}

=== FILE: summary.dfy ===
/** `DataSummary`: grouped passenger totals by airline, month and year,
    year-on-year growth over the year totals, and the count, minimum and
    maximum of the passenger counts. The summaries only read the records. */
module Summary {
  import opened Wrappers
  import opened Keys
  import opened Grouping

  /** A record as the summaries read it. `year` and `month` are fields the
      caller supplies: the preprocessing pipeline does not produce them. */
  datatype Record = Record(airline: string, passengers: Option<int>, year: int, month: int)

  /** The column a summary groups by. */
  datatype GroupColumn = ByAirline | ByMonth | ByYear

  function KeyOf(r: Record, c: GroupColumn): Key {
    match c
    case ByAirline => StrKey(r.airline)
    case ByMonth => IntKey(r.month)
    case ByYear => IntKey(r.year)
  }

  /** What a record adds to a sum: `sum()` skips a missing count. */
  function Contribution(r: Record): int {
    r.passengers.GetOr(0)
  }

  /** The distinct values of the grouping column. */
  function KeySet(t: seq<Record>, c: GroupColumn): set<Key> {
    set i | 0 <= i < |t| :: KeyOf(t[i], c)
  }

  /** Reference: the sum of the present counts of the records whose
      grouping column holds `k`. */
  function KeyTotal(t: seq<Record>, c: GroupColumn, k: Key): int {
    if |t| == 0 then 0
    else (if KeyOf(t[0], c) == k then Contribution(t[0]) else 0) + KeyTotal(t[1..], c, k)
  }

  /** Reference: the sum of all present counts. */
  function PresentTotal(t: seq<Record>): int {
    if |t| == 0 then 0 else Contribution(t[0]) + PresentTotal(t[1..])
  }

  function Pairs(t: seq<Record>, c: GroupColumn): (ps: seq<(Key, int)>)
    ensures |ps| == |t|
  {
    seq(|t|, i requires 0 <= i < |t| => (KeyOf(t[i], c), Contribution(t[i])))
  }

  lemma {:induction false} PairsMeaning(t: seq<Record>, c: GroupColumn)
    ensures PairKeys(Pairs(t, c)) == KeySet(t, c)
    ensures forall k :: SumFor(Pairs(t, c), k) == KeyTotal(t, c, k)
    ensures SumAll(Pairs(t, c)) == PresentTotal(t)
    decreases |t|
  {
    if |t| > 0 {
      PairsMeaning(t[1..], c);
      assert Pairs(t, c)[1..] == Pairs(t[1..], c);
    }
    var ps := Pairs(t, c);
    forall k | k in KeySet(t, c)
      ensures k in PairKeys(ps)
    {
      var i :| 0 <= i < |t| && KeyOf(t[i], c) == k;
      assert ps[i].0 == k;
    }
    forall k | k in PairKeys(ps)
      ensures k in KeySet(t, c)
    {
      var i :| 0 <= i < |ps| && ps[i].0 == k;
      assert KeyOf(t[i], c) == k;
    }
  }

  /** `groupby(column)['Passenger Count'].sum()`: one row per distinct value
      of the column, in ascending order, holding the sum of the present
      counts of that value's records; the rows add up to the table total. */
  function GroupedSums(t: seq<Record>, c: GroupColumn): (r: seq<Group>)
    ensures Ascending(r)
    ensures KeysOf(r) == KeySet(t, c)
    ensures forall i :: 0 <= i < |r| ==> r[i].total == KeyTotal(t, c, r[i].key)
    ensures SumTotals(r) == PresentTotal(t)
  {
    PairsMeaning(t, c);
    GroupSum(Pairs(t, c))
  }

  /** `traffic_by_airline()`: per airline, in ascending name order, the
      total of its present passenger counts. */
  function TrafficByAirline(t: seq<Record>): (r: seq<Group>)
    ensures Ascending(r)
    ensures forall i :: 0 <= i < |r| ==> r[i].key.StrKey?
    ensures forall a :: StrKey(a) in KeysOf(r) <==> exists i :: 0 <= i < |t| && t[i].airline == a
    ensures forall i :: 0 <= i < |r| ==> r[i].total == KeyTotal(t, ByAirline, r[i].key)
    ensures SumTotals(r) == PresentTotal(t)
  {
    var r := GroupedSums(t, ByAirline);
    assert forall i :: 0 <= i < |r| ==> r[i].key in KeySet(t, ByAirline);
    forall a | exists i :: 0 <= i < |t| && t[i].airline == a
      ensures StrKey(a) in KeysOf(r)
    {
      var i :| 0 <= i < |t| && t[i].airline == a;
      assert KeyOf(t[i], ByAirline) == StrKey(a);
    }
    r
  }

  /** `monthly_traffic_summary()`: per month value, in ascending order, the
      total of its present passenger counts. */
  function MonthlyTrafficSummary(t: seq<Record>): (r: seq<Group>)
    ensures Ascending(r)
    ensures forall i :: 0 <= i < |r| ==> r[i].key.IntKey?
    ensures forall m :: IntKey(m) in KeysOf(r) <==> exists i :: 0 <= i < |t| && t[i].month == m
    ensures forall i :: 0 <= i < |r| ==> r[i].total == KeyTotal(t, ByMonth, r[i].key)
    ensures SumTotals(r) == PresentTotal(t)
  {
    var r := GroupedSums(t, ByMonth);
    assert forall i :: 0 <= i < |r| ==> r[i].key in KeySet(t, ByMonth);
    forall m | exists i :: 0 <= i < |t| && t[i].month == m
      ensures IntKey(m) in KeysOf(r)
    {
      var i :| 0 <= i < |t| && t[i].month == m;
      assert KeyOf(t[i], ByMonth) == IntKey(m);
    }
    r
  }

  /** A percent change: a number, or what float division by a zero prior
      total gives (`inf`, `-inf`, or NaN for `0 / 0`); `Undefined` is also
      the NaN of the first year, which has no prior year. */
  datatype Growth = Undefined | PlusInfinity | MinusInfinity | Percent(p: real)

  /** `pct_change() * 100` between a prior and a current total: the quotient
      of the two minus one, times 100. */
  function PctChange(prior: int, current: int): Growth {
    if prior == 0 then
      (if current > 0 then PlusInfinity else if current < 0 then MinusInfinity else Undefined)
    else Percent((current as real / prior as real - 1.0) * 100.0)
  }

  /** Growth in percent as the summary states it: the difference from the
      prior total, over the prior total, times 100. */
  function GrowthPercent(prior: int, current: int): real
    requires prior != 0
  {
    (current - prior) as real / prior as real * 100.0
  }

  /** The growth column for a column of totals: undefined for the first,
      the percent change from the previous one for the others. */
  function Growths(totals: seq<int>): (g: seq<Growth>)
    ensures |g| == |totals|
  {
    seq(|totals|, i requires 0 <= i < |totals| => if i == 0 then Undefined else PctChange(totals[i - 1], totals[i]))
  }

  /** The percent change is the difference over the prior total, times 100. */
  lemma GrowthFormula(prior: int, current: int)
    requires prior != 0
    ensures PctChange(prior, current) == Percent(GrowthPercent(prior, current))
  {
  }

  /** Totals 100, 150, 120 grow by nothing, 50% and -20%. */
  lemma GrowthsExample()
    ensures Growths([100, 150, 120]) == [Undefined, Percent(50.0), Percent(-20.0)]
  {
    GrowthFormula(100, 150);
    GrowthFormula(150, 120);
  }

  datatype YearRow = YearRow(year: int, total: int, growth: Growth)

  /** `year_on_year_growth()`: each distinct year once, ascending, with its
      total and its percent change from the year before. */
  function YearOnYearGrowth(t: seq<Record>): (r: seq<YearRow>)
    ensures forall i, j :: 0 <= i < j < |r| ==> r[i].year < r[j].year
    ensures (set i | 0 <= i < |r| :: r[i].year) == Years(t)
    ensures forall i :: 0 <= i < |r| ==> r[i].total == KeyTotal(t, ByYear, IntKey(r[i].year))
    ensures |r| > 0 ==> r[0].growth == Undefined
    ensures forall i :: 1 <= i < |r| && r[i - 1].total != 0 ==>
              r[i].growth == Percent(GrowthPercent(r[i - 1].total, r[i].total))
    ensures forall i :: 1 <= i < |r| && r[i - 1].total == 0 ==>
              r[i].growth == (if r[i].total > 0 then PlusInfinity else if r[i].total < 0 then MinusInfinity else Undefined)
  {
    var g := GroupedSums(t, ByYear);
    YearKeys(t, g);
    var r := YearTable(g);
    YearRows(t, g, r);
    YearGrowths(r, Totals(g));
    r
  }

  function Totals(g: seq<Group>): (totals: seq<int>)
    ensures |totals| == |g| && forall i :: 0 <= i < |g| ==> totals[i] == g[i].total
  {
    seq(|g|, i requires 0 <= i < |g| => g[i].total)
  }

  /** The year groups as year rows, with the growth column added. */
  function YearTable(g: seq<Group>): (r: seq<YearRow>)
    requires forall i :: 0 <= i < |g| ==> g[i].key.IntKey?
    ensures |r| == |g|
    ensures forall i :: 0 <= i < |g| ==> g[i].key == IntKey(r[i].year) && g[i].total == r[i].total
    ensures forall i :: 0 <= i < |g| ==> r[i].growth == Growths(Totals(g))[i]
  {
    var growth := Growths(Totals(g));
    seq(|g|, i requires 0 <= i < |g| => YearRow(g[i].key.i, g[i].total, growth[i]))
  }

  /** Grouping by year yields integer keys only. */
  lemma YearKeys(t: seq<Record>, g: seq<Group>)
    requires KeysOf(g) == KeySet(t, ByYear)
    ensures forall i :: 0 <= i < |g| ==> g[i].key.IntKey?
  {
    assert forall i :: 0 <= i < |g| ==> g[i].key in KeySet(t, ByYear);
  }

  /** The growth of one year after the first, in terms of its prior year's
      total. */
  lemma GrowthAt(totals: seq<int>, i: nat)
    requires 1 <= i < |totals|
    ensures totals[i - 1] != 0 ==>
              Growths(totals)[i] == Percent(GrowthPercent(totals[i - 1], totals[i]))
    ensures totals[i - 1] == 0 ==>
              Growths(totals)[i] == (if totals[i] > 0 then PlusInfinity else if totals[i] < 0 then MinusInfinity else Undefined)
  {
    if totals[i - 1] != 0 {
      GrowthFormula(totals[i - 1], totals[i]);
    }
  }

  lemma YearGrowths(r: seq<YearRow>, totals: seq<int>)
    requires |totals| == |r|
    requires forall i :: 0 <= i < |r| ==> r[i].total == totals[i] && r[i].growth == Growths(totals)[i]
    ensures |r| > 0 ==> r[0].growth == Undefined
    ensures forall i :: 1 <= i < |r| && r[i - 1].total != 0 ==>
              r[i].growth == Percent(GrowthPercent(r[i - 1].total, r[i].total))
    ensures forall i :: 1 <= i < |r| && r[i - 1].total == 0 ==>
              r[i].growth == (if r[i].total > 0 then PlusInfinity else if r[i].total < 0 then MinusInfinity else Undefined)
  {
    forall i | 1 <= i < |r|
      ensures r[i - 1].total != 0 ==>
                r[i].growth == Percent(GrowthPercent(r[i - 1].total, r[i].total))
      ensures r[i - 1].total == 0 ==>
                r[i].growth == (if r[i].total > 0 then PlusInfinity else if r[i].total < 0 then MinusInfinity else Undefined)
    {
      GrowthAt(totals, i);
    }
  }

  /** The years of the table, as a set. */
  function Years(t: seq<Record>): set<int> {
    set i | 0 <= i < |t| :: t[i].year
  }

  lemma YearRows(t: seq<Record>, g: seq<Group>, r: seq<YearRow>)
    requires Ascending(g) && KeysOf(g) == KeySet(t, ByYear)
    requires forall i :: 0 <= i < |g| ==> g[i].total == KeyTotal(t, ByYear, g[i].key)
    requires |r| == |g| && forall i :: 0 <= i < |g| ==> g[i].key == IntKey(r[i].year) && g[i].total == r[i].total
    ensures forall i, j :: 0 <= i < j < |r| ==> r[i].year < r[j].year
    ensures forall i :: 0 <= i < |r| ==> r[i].total == KeyTotal(t, ByYear, IntKey(r[i].year))
    ensures (set i | 0 <= i < |r| :: r[i].year) == Years(t)
  {
    forall i | 0 <= i < |r|
      ensures r[i].year in Years(t)
    {
      YearOfRow(t, g, r, i);
    }
    forall l | 0 <= l < |t|
      ensures exists i :: 0 <= i < |r| && r[i].year == t[l].year
    {
      RowOfYear(t, g, r, l);
    }
  }

  lemma YearOfRow(t: seq<Record>, g: seq<Group>, r: seq<YearRow>, i: nat)
    requires KeysOf(g) == KeySet(t, ByYear)
    requires |r| == |g| && forall i :: 0 <= i < |g| ==> g[i].key == IntKey(r[i].year)
    requires i < |r|
    ensures r[i].year in Years(t)
  {
    assert g[i].key in KeysOf(g);
    var l :| 0 <= l < |t| && KeyOf(t[l], ByYear) == g[i].key;
    assert t[l].year == r[i].year;
  }

  lemma RowOfYear(t: seq<Record>, g: seq<Group>, r: seq<YearRow>, l: nat)
    requires KeysOf(g) == KeySet(t, ByYear)
    requires |r| == |g| && forall i :: 0 <= i < |g| ==> g[i].key == IntKey(r[i].year)
    requires l < |t|
    ensures exists i :: 0 <= i < |r| && r[i].year == t[l].year
  {
    assert KeyOf(t[l], ByYear) in KeySet(t, ByYear);
    var i :| 0 <= i < |g| && g[i].key == IntKey(t[l].year);
    assert r[i].year == t[l].year;
  }

  // ---------------------------------------------------------------------
  // summary_statistics: count, min, max

  /** The count, minimum and maximum of `describe()`; the minimum and
      maximum are NaN (`None`) when no count is present. */
  datatype Stats = Stats(count: nat, min: Option<int>, max: Option<int>)

  /** Reference: the present passenger counts, in order. */
  function PresentCounts(t: seq<Record>): seq<int> {
    if |t| == 0 then []
    else (if t[0].passengers.Some? then [t[0].passengers.value] else []) + PresentCounts(t[1..])
  }

  function Min(a: int, b: Option<int>): int {
    if b.Some? && b.value < a then b.value else a
  }

  function Max(a: int, b: Option<int>): int {
    if b.Some? && b.value > a then b.value else a
  }

  /** `describe()`'s count, min and max of `Passenger Count`: the number of
      present counts, and when there is one, the least and greatest of them. */
  function SummaryStatistics(t: seq<Record>): (s: Stats)
    ensures s.count == |PresentCounts(t)|
    ensures s.min.Some? <==> s.count > 0
    ensures s.max.Some? <==> s.count > 0
    ensures s.min.Some? ==> s.min.value in PresentCounts(t)
                             && forall x :: x in PresentCounts(t) ==> s.min.value <= x
    ensures s.max.Some? ==> s.max.value in PresentCounts(t)
                             && forall x :: x in PresentCounts(t) ==> x <= s.max.value
  {
    if |t| == 0 then Stats(0, None, None)
    else
      var rest := SummaryStatistics(t[1..]);
      match t[0].passengers
      case None => rest
      case Some(x) => Stats(rest.count + 1, Some(Min(x, rest.min)), Some(Max(x, rest.max)))
  }

  /** With at least one present count, the minimum does not exceed the
      maximum; with none, the count is zero and both are missing. */
  lemma StatisticsBounds(t: seq<Record>)
    ensures SummaryStatistics(t).count > 0 ==>
              SummaryStatistics(t).min.value <= SummaryStatistics(t).max.value
    ensures SummaryStatistics(t).count == 0 ==>
              SummaryStatistics(t).min == None && SummaryStatistics(t).max == None
  {
    var s := SummaryStatistics(t);
    if s.count > 0 {
      assert s.max.value in PresentCounts(t);
    }
  }

  /** Rows (A, 10), (B, 5), (A, 20) give A: 30 and B: 5. */
  lemma TrafficByAirlineExample()
    ensures TrafficByAirline([Record("A", Some(10), 2020, 1), Record("B", Some(5), 2020, 1),
                              Record("A", Some(20), 2020, 2)])
            == [Group(StrKey("A"), 30), Group(StrKey("B"), 5)]
  {
    var t := [Record("A", Some(10), 2020, 1), Record("B", Some(5), 2020, 1), Record("A", Some(20), 2020, 2)];
    var ps := Pairs(t, ByAirline);
    var g1 := [Group(StrKey("A"), 10)];
    var g2 := [Group(StrKey("A"), 10), Group(StrKey("B"), 5)];
    assert Accumulate([], ps) == Accumulate(g1, ps[1..]);
    assert Accumulate(g1, ps[1..]) == Accumulate(g2, ps[2..]);
  }
}

=== FILE: tables.dfy ===
/** The in-memory table the preprocessing pipeline works on: named columns
    and rows of possibly missing cells, with the column names the pipeline
    reads and writes, and the errors it can raise. */
module Tables {
  import opened Wrappers
  import opened Seqs
  import Period

  /** A cell's value: text, an integer, or a parsed timestamp. */
  datatype Value = Text(s: string) | Int(i: int) | Stamp(d: Period.Date)

  /** A cell; `None` is pandas' NaN/NaT. */
  type Cell = Option<Value>

  type Row = seq<Cell>

  datatype Table = Table(columns: seq<string>, rows: seq<Row>)

  /** Column names are unique and every row has one cell per column. */
  predicate WellFormed(t: Table) {
    NoDuplicates(t.columns) && Rectangular(t.rows, |t.columns|)
  }

  const PeriodColumn: string := "Activity Period"
  const AirlineColumn: string := "Operating Airline"
  const FormattedColumn: string := "Formatted_Activity_Period"

  /** What the pipeline raises: a `KeyError` for an absent column, or the
      parse error of the first period that does not convert. */
  datatype Error = MissingColumn(name: string) | InvalidPeriod(row: nat, reason: Period.PeriodError)

  /** The position of a column, found by name. */
  function ColumnIndex(columns: seq<string>, name: string): (r: Option<nat>)
    ensures r.None? <==> name !in columns
    ensures r.Some? ==> r.value < |columns| && columns[r.value] == name
    ensures r.Some? ==> name !in columns[..r.value]
  {
    if |columns| == 0 then None
    else if columns[0] == name then Some(0)
    else match ColumnIndex(columns[1..], name)
      case None => None
      case Some(k) =>
        assert columns[..k + 1] == [columns[0]] + columns[1..][..k];
        Some(k + 1)
  }

  /** The cell of `row` in the named column (missing when there is no such
      column). */
  function CellAt(columns: seq<string>, row: Row, name: string): Cell {
    match ColumnIndex(columns, name)
    case Some(j) => if j < |row| then row[j] else None
    case None => None
  }

  /** `astype(str)` of one cell: NaN renders as `nan`, an integer in
      decimal, a timestamp of a datetime column as `YYYY-MM-DD`. */
  function CellText(c: Cell): string {
    match c
    case None => "nan"
    case Some(Text(s)) => s
    case Some(Int(n)) => Period.IntText(n)
    case Some(Stamp(d)) => Period.DateText(d)
  }

  /** In a list of unique names, a name's index is its only position. */
  lemma ColumnIndexUnique(columns: seq<string>, name: string, j: nat)
    requires NoDuplicates(columns) && j < |columns| && columns[j] == name
    ensures ColumnIndex(columns, name) == Some(j)
  {
    var k := ColumnIndex(columns, name).value;
    assert columns[k] == columns[j];
  }

  /** Appending a new column leaves every existing column where it was. */
  lemma ColumnIndexAppend(columns: seq<string>, extra: string, name: string)
    requires name in columns
    ensures ColumnIndex(columns + [extra], name) == ColumnIndex(columns, name)
    decreases |columns|
  {
    if columns[0] != name {
      assert (columns + [extra])[1..] == columns[1..] + [extra];
      ColumnIndexAppend(columns[1..], extra, name);
    }
  }
}

=== FILE: wrappers.dfy ===
/** Missing values and raised errors. A table cell is an `Option`, empty
    where pandas shows NaN or NaT; a step of the pipeline returns a
    `Result`, which is `Failure` where the Python code raises. Only
    `Result` is used with `:-`, so a raising step ends the pipeline early. */
module Wrappers {

  /** A value or nothing; `GetOr` is what `sum()` uses to skip a NaN. */
  datatype Option<+T> = None | Some(value: T) {

    /** The value, or `default` when missing. */
    function GetOr(default: T): T {
      match this
      case Some(v) => v
      case None => default
    }
  }

  /** A returned value, or the error a step raised. */
  datatype Result<+R, +E> = Success(value: R) | Failure(error: E) {

    predicate IsFailure() {
      Failure?
    }

    function PropagateFailure<U>(): Result<U, E>
      requires Failure?
    {
      Failure(error)
    }

    function Extract(): R
      requires Success?
    {
      value
    }
  }
}
